=== FILE: README.md ===
# A Dafny model of an AI chat client's chat logic

The system is a browser chat client for a language model. It keeps
conversations ("chats") in the browser's IndexedDB store through `lib/db.ts`.
Three generations of chat managers hold an in-memory list of chats next to a
store, together with the id of the open chat:

- `SimpleChatManager` mirrors its list to local storage.
- `EnhancedChatManager` owns its own object store.
- `WorkingChatManager` writes through `lib/db.ts`.

A sidebar lists, creates and deletes chats and shows each chat's age in
days. Several HTTP handlers sit on the server side:

- `/api/chats` and `/api/deepseek-save` keep chats in a module-level `Map`.
- `/api/chat` turns a conversation into a request for the model.
- Two web-search handlers fold earlier questions into one contextual query.

The older chat page parses a model answer that carries its reasoning
between `<thinking>` tags. It also renders search hits into a numbered
system message and keeps the last five questions. `lib/fileText.ts` turns an
uploaded file into text and a MIME type.

The model is functional:

- A store is a `map` from id to chat record.
- A `Map` is an insertion-ordered list of unique keys.
- An in-memory list is a `seq`.
- Every operation is a function from the old state to the new one.
- Timestamps are integer milliseconds.
- Generated ids, clock readings, the search engine and file contents are
  parameters.

Modules:

- `Wrappers`, `JsString`, `SplitJoin`, `Decimal`: `Option`, JavaScript
  truthiness, and the JavaScript string operations the code relies on:
  - `trim` with the ECMAScript whitespace set;
  - `includes`, `indexOf` and first-occurrence `replace`;
  - `split` and `join`;
  - `toLowerCase`;
  - the rendering of integers as decimal strings.
- `ChatModel`: the chat, message and attached-file records, title
  defaulting and derivation, and object spread. Spread is modelled with
  update objects whose properties are absent or present, so that
  `{ systemPrompt: undefined }` is distinct from `{}`.
- `KeyedList`: `filter`, `find`, `map`-by-id and move-to-front over a keyed
  list.
- `ChatDb`: the `lib/db.ts` store.
- `WorkingManager`, `EnhancedManager`, `SimpleManager`, `ChatSidebar`: the
  managers and the sidebar.
- `JsMap`, `ChatsRoute`, `DeepseekSaveRoute`: the in-memory route stores.
- `ChatRoute`, `ExaSearchRoute`, `ExaSearchFallback`: the model-request and
  search handlers.
- `ThinkingTags`, `PageOld`: the older page's parser, search context,
  question window and new-chat title.
- `FileText`: `fileToText`.

## Model

| member | source | states |
|---|---|---|
| JsString.Trim | app/page_old.tsx:24-25 | The result has no leading or trailing whitespace and is what remains of the input once a whitespace prefix and a whitespace suffix are removed |
| JsString.TrimEmptyIff | app/api/chat/route.ts:17 | Trimming gives the empty string exactly when the input is all whitespace |
| JsString.TrimIdempotent | app/api/chat/route.ts:17 | Trimming a trimmed string changes nothing |
| JsString.IndexOf | app/page_old.tsx:22 | The result is the first position where the pattern occurs, or nothing exactly when it occurs nowhere |
| JsString.ReplaceFirst | app/page_old.tsx:24 | When the pattern occurs, the result is the string with the pattern's first occurrence, and only that one, replaced; a string without the pattern is unchanged |
| JsString.ReplaceFirstAt | app/page_old.tsx:24 | Conversely, at whatever position the first occurrence lies, the replacement happens there, and the length changes by the difference of the two strings |
| JsString.ReplaceFirstLeading | app/page_old.tsx:24 | A pattern at the very start is the one replaced |
| JsString.ToLower | lib/fileText.ts:4 | Each character is lower-cased in place and the length is kept |
| JsString.LexLeTotal | lib/db.ts:135 | The key order that breaks ties between equal stamps is total |
| JsString.LexLeTransitive | lib/db.ts:135 | The key order is transitive |
| JsString.LexLeAntisymmetric | lib/db.ts:135 | The key order is antisymmetric, so ties between equal stamps are broken uniquely |
| SplitJoin.Split | app/page_old.tsx:22 | A split yields at least one piece |
| SplitJoin.SplitPiecesFree | app/page_old.tsx:22 | No piece of a split contains the separator |
| SplitJoin.SplitThenJoin | app/page_old.tsx:25 | Joining the pieces of a split with the same separator rebuilds the string |
| SplitJoin.JoinThenSplit | app/api/exawebsearch/route.ts:17-19 | Splitting a join of separator-free lines at a one-character separator gives the lines back |
| SplitJoin.SplitSingleIff | app/page_old.tsx:22-23 | A split has more than one piece exactly when the separator occurs |
| SplitJoin.SplitLastIsSuffix | lib/fileText.ts:4 | The last piece of a split is a suffix of the string |
| SplitJoin.SplitLastAfterSeparator | lib/fileText.ts:4 | When the separator occurs, it stands right before the last piece |
| Decimal.NatToStringRoundTrip | app/page_old.tsx:190 | Reading the decimal rendering of a number gives the number back |
| Decimal.NatToStringInjective | app/page_old.tsx:190 | Different numbers render differently |
| Decimal.IntToStringRoundTrip | app/components/ChatSidebar.tsx:71 | The rendering of any integer, negatives included, parses back to it |
| ThinkingTags.ParseMessageContent | app/page_old.tsx:19-53 | There is reasoning exactly when `<thinking>` occurs, and the answer is complete exactly unless the opening tag is present with no first `</thinking>` after position 0 |
| ThinkingTags.ParseWithoutTag | app/page_old.tsx:46-52 | With no opening tag the whole content is the answer, complete, with no reasoning |
| ThinkingTags.ParseClosed | app/page_old.tsx:21-32 | With an opening tag and a first `</thinking>` after position 0, the reasoning is the trimmed text before it with the first opening tag removed, and the answer is the trimmed text after it |
| ThinkingTags.ParseUnclosed | app/page_old.tsx:35-44 | With an opening tag and no usable closing split, the reasoning is the trimmed content without its first opening tag and the answer is empty and not complete |
| ThinkingTags.SplitShape | app/page_old.tsx:22-25 | The first piece of the split is the text before the first closing tag, and rejoining the other pieces gives the text after it, with later closing tags kept |
| ThinkingTags.TaggedRoundTrip | app/page_old.tsx:19-33 | Parsing `<thinking>t</thinking>a` gives back the trimmed `t` and `a`, marked complete |
| ChatModel.TitleOrDefault | lib/db.ts:153 | The title is never empty: the given title when it is a non-empty string, otherwise `Новый чат` |
| ChatModel.TitleFromContentShape | app/components/EnhancedChatManager.tsx:187-189 | A message of at most 50 characters is its own title; a longer one gives its first 50 characters plus `...` |
| ChatModel.TitleFromContentIdempotent | app/components/EnhancedChatManager.tsx:188 | Deriving a title from a derived title changes nothing |
| ChatModel.Touch | lib/db.ts:168-172 | The merged record carries the new stamp and keeps the id unless the update sets one |
| ChatModel.SpreadNoChange | app/api/chats/route.ts:72-76 | Spreading the empty update object copies the chat |
| ChatModel.SpreadThen | app/api/chats/route.ts:72-76 | Spreading two updates one after the other is spreading their merge |
| ChatModel.SpreadFields | lib/db.ts:168-172 | For each of the seven properties: left out of the update, it keeps the chat's value; carried by the update, it takes the update's value, `undefined` included |
| KeyedList.Without | app/components/WorkingChatManager.tsx:180 | The filtered list has no record with the id, keeps every other record, is a subsequence of the input, is shorter by exactly the number of records with the id, and is the input when no record has the id |
| KeyedList.WithoutIdempotent | app/components/WorkingChatManager.tsx:180 | Filtering twice by the same id is filtering once |
| KeyedList.WithoutCharacterized | app/components/WorkingChatManager.tsx:180 | Any subsequence free of the id and shorter than the input by exactly the number of records with the id is the filtered list |
| KeyedList.Find | app/components/WorkingChatManager.tsx:242 | The result is the first record with the id, and nothing exactly when no record has it |
| KeyedList.ReplaceWhere | app/components/SimpleChatManager.tsx:53-55 | Records with the id are replaced by the function's image, the rest stay in place, and the length is kept |
| KeyedList.MoveToFront | app/components/WorkingChatManager.tsx:232-235 | The record comes first and is the only one with its key, and the length is one more than the input's less the records with that key. The rest are the other records in their old order |
| ChatDb.WithPrompt | lib/db.ts:100 | A missing prompt reads as `''`; a chat with a prompt is unchanged |
| ChatDb.SaveChat | lib/db.ts:79-90 | The record is stored under its id with its prompt normalised, and no other key changes |
| ChatDb.GetChat | lib/db.ts:92-114 | A record is returned exactly when the id is stored, and it is the stored record with its prompt normalised |
| ChatDb.DeleteChat | lib/db.ts:138-141 | Exactly that key is removed, and every other record is kept |
| ChatDb.DeleteAllChats | lib/db.ts:143-148 | The store is empty |
| ChatDb.CreateChat | lib/db.ts:150-163 | The new record has no messages, an empty prompt, no file and the default title when none is given. Its `createdAt` and `updatedAt` are two separate clock readings. It is stored under its id and no other key changes |
| ChatDb.UpdateChat | lib/db.ts:165-175 | An absent id writes nothing; a present id saves the stored record with the updates spread over it and a fresh stamp |
| ChatDb.UpdateChatFields | lib/db.ts:165-175 | Field by field: the stamp is `now`, each property the update carries replaces the stored one (an `undefined` prompt is stored as `''`), every other property is kept, and no other record changes |
| ChatDb.UpgradeV2 | lib/db.ts:56-74 | Below version 2, every record gains `''` as its prompt when it has none and is otherwise unchanged. From version 2 on, nothing changes |
| ChatDb.UpgradeV2Settles | lib/db.ts:56-74 | After the upgrade every record reads back exactly as stored, and upgrading again changes nothing |
| ChatDb.InsertSorted | lib/db.ts:135 | Inserting into a list sorted newest first keeps it sorted |
| ChatDb.SortByRecency | app/components/EnhancedChatManager.tsx:99-109 | The output is sorted newest first, has the store's size, holds every stored record, and holds only stored records |
| ChatDb.GetAllChats | lib/db.ts:116-136 | The output is every stored record once, prompts normalised, sorted by `updatedAt` non-increasing with ties in key order |
| WorkingManager.LoadChats | app/components/WorkingChatManager.tsx:58-89 | The list is every stored chat as the store reads it back, newest first, and it is in step with the store |
| WorkingManager.CreateNewChat | app/components/WorkingChatManager.tsx:144-171 | The new chat has the default title when none is given, no messages, an empty prompt and the two stamps of its record. It is stored, prepended to the list and opened, and no other stored record changes |
| WorkingManager.CreateNewChatSynced | app/components/WorkingChatManager.tsx:144-171 | With a fresh id, creating keeps the list in step with the store |
| WorkingManager.DeleteChat | app/components/WorkingChatManager.tsx:177-187 | The id leaves the store and the list, and every other stored record is unchanged. The list is a subsequence of the old one, shorter by exactly the chats with that id, and keeps every other chat. The open id is cleared exactly when it was the deleted one |
| WorkingManager.DeleteChatSynced | app/components/WorkingChatManager.tsx:177-187 | Deleting keeps the list in step with the store |
| WorkingManager.DeleteChatInStep | app/components/WorkingChatManager.tsx:177-187 | Deleting keeps the list in step with the store, stamps aside |
| WorkingManager.ClearAllChats | app/components/WorkingChatManager.tsx:132-142 | The list and the store are empty and no chat is open |
| WorkingManager.GetCurrentChat | app/components/WorkingChatManager.tsx:241-243 | The result is the first listed chat with the open id: no earlier chat has it. It is nothing exactly when no chat is open or none is listed with that id |
| WorkingManager.AddMessage | app/components/WorkingChatManager.tsx:189-239 | An unknown id changes nothing. Otherwise the stored messages gain the message at the end, stamped with its own time or the message clock reading. Every other property of the record is kept as read back (an absent prompt becomes `''`), the record takes the store's clock reading, and no other record changes. The chat read back, stamped with the list's own reading, goes first in the list and appears once there; the other chats keep their order |
| WorkingManager.AddMessageInStep | app/components/WorkingChatManager.tsx:189-239 | Adding a message keeps the list in step with the store apart from `updatedAt`, whatever the two clock readings |
| WorkingManager.AddMessageStamps | app/components/WorkingChatManager.tsx:206-229 | The list's copy of the chat equals the store's record exactly when the store and the list read the same time |
| WorkingManager.ApplyMeta | app/components/WorkingChatManager.tsx:111-126 | A given prompt replaces the prompt. `null` removes the file, a file replaces it, and a missing value keeps it. The stamp is `now` and nothing else changes |
| WorkingManager.MetaPatchAsWritten | app/components/WorkingChatManager.tsx:96-109 | The update object always carries both properties, with the file present only when one is given |
| WorkingManager.UpdateChatMetaAsWritten | app/components/WorkingChatManager.tsx:91-130 | The store receives the as-written update object and the listed chat receives the in-memory update |
| WorkingManager.UpdateChatMetaAsWrittenDropsFile | app/components/WorkingChatManager.tsx:96-109 | Changing only the prompt erases a stored file while the list still shows it, so list and store fall out of step |
| WorkingManager.UpdateChatMetaAsWrittenDropsPrompt | app/components/WorkingChatManager.tsx:96-109 | Attaching a file without a prompt resets the stored prompt to `''` |
| WorkingManager.MetaPatch | app/components/WorkingChatManager.tsx:111-126 | The update object carries a prompt exactly when one is given and a file property exactly when the file is to change |
| WorkingManager.MetaPatchMatchesApplyMeta | app/components/WorkingChatManager.tsx:111-126 | Storing the corrected update object has the same effect as the in-memory update |
| WorkingManager.UpdateChatMeta | app/components/WorkingChatManager.tsx:91-130 | The listed chat with the id receives the in-memory update stamped with the list's reading, and its stored record the same update stamped with the store's reading. Every other chat and record is unchanged |
| WorkingManager.UpdateChatMetaInStep | app/components/WorkingChatManager.tsx:91-130 | The corrected update keeps the list in step with the store apart from `updatedAt` |
| WorkingManager.CreatedIsCurrent | app/components/WorkingChatManager.tsx:144-243 | A chat just created is the open chat |
| EnhancedManager.Save | app/components/EnhancedChatManager.tsx:48-59 | The record is stored as given under its id, and no other key changes |
| EnhancedManager.LoadChats | app/components/EnhancedChatManager.tsx:134-144 | The list is every stored chat, sorted by `updatedAt` non-increasing, and every listed chat is stored as listed |
| EnhancedManager.CreateNewChat | app/components/EnhancedChatManager.tsx:146-159 | The new chat is empty with the default title when none is given, and its two dates are two clock readings. It is saved, prepended and opened, and no other stored chat changes |
| EnhancedManager.CreateNewChatPersisted | app/components/EnhancedChatManager.tsx:146-159 | With a fresh id, every listed chat stays stored as listed |
| EnhancedManager.UpdateChat | app/components/EnhancedChatManager.tsx:161-173 | An unlisted id changes nothing. Otherwise the merged, restamped chat is saved and replaces that chat in the list, and the other positions are unchanged |
| EnhancedManager.UpdateChatPersisted | app/components/EnhancedChatManager.tsx:161-173 | An update that keeps the id keeps every listed chat stored as listed |
| EnhancedManager.AddMessage | app/components/EnhancedChatManager.tsx:175-191 | An unlisted id changes nothing |
| EnhancedManager.AddMessageStores | app/components/EnhancedChatManager.tsx:161-191 | The stored chat gains the message at the end. The first user message of an empty chat becomes its derived title, any other leaves the title alone, and everything else but the stamp is kept; no other stored chat changes. In the list every chat with the id becomes the saved record, the others stay in place, and the open chat is unchanged |
| EnhancedManager.DeleteChat | app/components/EnhancedChatManager.tsx:193-199 | The id leaves the store and every other stored chat is unchanged. The list is a subsequence of the old one, shorter by exactly the chats with that id, and keeps every other chat. The open id is cleared exactly when it matched |
| EnhancedManager.DeleteChatPersisted | app/components/EnhancedChatManager.tsx:193-199 | Deleting keeps every listed chat stored as listed |
| EnhancedManager.GetCurrentChat | app/components/EnhancedChatManager.tsx:201-203 | The result is the first listed chat with the open id: no earlier chat has it. It is nothing exactly when there is none |
| EnhancedManager.CreatedIsCurrent | app/components/EnhancedChatManager.tsx:146-203 | A chat just created is the open chat |
| EnhancedManager.DeletedIsNotCurrent | app/components/EnhancedChatManager.tsx:193-203 | Once the open chat is deleted no chat is open |
| SimpleManager.SpreadSimple | app/components/SimpleChatManager.tsx:54 | For each of the four properties: left out of the update, it keeps its value; carried by the update, it takes the update's value |
| SimpleManager.Persist | app/components/SimpleChatManager.tsx:33-37 | The entry is written with the list exactly when the list is non-empty; otherwise the old entry stays |
| SimpleManager.Load | app/components/SimpleChatManager.tsx:17-30 | The list is the saved entry, or empty when nothing was saved, and no chat is open |
| SimpleManager.CreateNewChat | app/components/SimpleChatManager.tsx:39-50 | An empty chat with the default title when none is given is prepended, opened and saved |
| SimpleManager.UpdateChat | app/components/SimpleChatManager.tsx:52-56 | Only the chats with the id receive the update, the order is kept, and the entry mirrors the list |
| SimpleManager.DeleteChat | app/components/SimpleChatManager.tsx:58-63 | The id leaves the list, which is a subsequence of the old one, shorter by exactly the chats with that id, and keeps every other chat. The open id is cleared exactly when it matched, and the entry mirrors the list |
| SimpleManager.GetCurrentChat | app/components/SimpleChatManager.tsx:65-67 | The result is the first listed chat with the open id: no earlier chat has it. It is nothing exactly when there is none |
| SimpleManager.DeleteLastChatReappears | app/components/SimpleChatManager.tsx:33-37 | Deleting the only chat leaves the entry holding it, so a reload brings it back |
| SimpleManager.ReloadKeepsNonEmptyList | app/components/SimpleChatManager.tsx:17-37 | While the list is non-empty, a reload gives the same list back |
| SimpleManager.CreatedIsCurrent | app/components/SimpleChatManager.tsx:39-67 | A chat just created is the open chat |
| ChatSidebar.LoadChats | app/components/ChatSidebar.tsx:21-30 | The list is every stored chat read back, newest first, and loading has ended |
| ChatSidebar.HandleDeleteChat | app/components/ChatSidebar.tsx:32-45 | Without confirmation nothing happens. With it the chat leaves the store, every other stored chat is unchanged, and the list is a subsequence of the old one, shorter by exactly the chats with that id and keeping every other chat. `onNewChat` is called exactly when it was the open chat |
| ChatSidebar.HandleDeleteChatIdempotent | app/components/ChatSidebar.tsx:32-45 | A second confirmed delete of the same chat changes nothing more |
| ChatSidebar.BeginCreate | app/components/ChatSidebar.tsx:47-49 | A creation starts exactly when none is under way |
| ChatSidebar.FinishCreate | app/components/ChatSidebar.tsx:50-58 | The new chat, made by `createChat`, has the default title, no messages, an empty prompt, no file and the two clock readings as its dates. It is stored, prepended and handed to `onChatSelect`, no other stored chat changes, and the guard is released |
| ChatSidebar.DoubleClickCreatesOnce | app/components/ChatSidebar.tsx:47-58 | Two clicks before the first creation ends create one chat |
| ChatSidebar.FloorDays | app/components/ChatSidebar.tsx:63-64 | The day count is the one whole day the difference falls in |
| ChatSidebar.FormatDate | app/components/ChatSidebar.tsx:61-75 | Day 0 reads `Сегодня` and day 1 reads `Вчера`. Any other day below 7, negatives included, reads `<days> дней назад`, and 7 days or more give the locale date |
| ChatSidebar.FutureDateIsNegative | app/components/ChatSidebar.tsx:63-71 | A date in the future reads as a negative number of days ago |
| JsMap.Get | app/api/deepseek-save/route.ts:50 | A value is found exactly when the key is present, and it is the value stored under it |
| JsMap.Set | app/api/chats/route.ts:30 | The key maps to the value, every other key keeps its value, and the key order is kept or extended by the new key |
| JsMap.Delete | app/api/deepseek-save/route.ts:76 | The key is gone, every other key keeps its value, and the flag says whether the key was there |
| JsMap.Clear | app/api/chats/route.ts:47 | No key remains |
| ChatsRoute.Get | app/api/chats/route.ts:6-15 | 200 with every stored chat in insertion order |
| ChatsRoute.Post | app/api/chats/route.ts:17-38 | An unreadable body gives 500 and no change. Otherwise an empty chat with the default title, its two dates two clock readings, is stored under its new id, returned with 200, and no other key changes |
| ChatsRoute.Delete | app/api/chats/route.ts:40-60 | Without an id the map is emptied and its former size reported. With one, only that key is removed and success is reported either way |
| ChatsRoute.Put | app/api/chats/route.ts:62-90 | An unreadable body gives 500, a missing id 400 and an unknown id 404, each leaving the map unchanged. Otherwise the stored chat merged with the updates and restamped replaces it, and keys and other values are unchanged |
| DeepseekSaveRoute.Post | app/api/deepseek-save/route.ts:8-41 | A missing id or message list gives 400 and no change. Otherwise the chat is stored or overwritten under its id with the default title when none is given and its two dates two clock readings. The message count and a third reading as `savedAt` are reported, and other keys are unchanged |
| DeepseekSaveRoute.Get | app/api/deepseek-save/route.ts:43-65 | With an id: the stored chat, or 404. Without one: every stored chat |
| DeepseekSaveRoute.Delete | app/api/deepseek-save/route.ts:67-90 | A missing id gives 400 and an absent key 404, each with no change. Otherwise exactly that key is removed |
| DeepseekSaveRoute.PostThenGet | app/api/deepseek-save/route.ts:17-54 | A saved chat fetched by its id comes back as saved |
| DeepseekSaveRoute.PostThenDelete | app/api/deepseek-save/route.ts:25-84 | Saving then deleting an id leaves the other chats as they were, and a second delete answers 404 |
| ChatRoute.SystemMessages | app/api/chat/route.ts:16 | Exactly the system messages, in order, as many as the input holds |
| ChatRoute.Forwarded | app/api/chat/route.ts:24 | Exactly the non-system messages, in order, as many as the input holds |
| ChatRoute.Partition | app/api/chat/route.ts:16-24 | Each message lands in exactly one of the two groups, as a multiset and by count |
| ChatRoute.SystemPrompt | app/api/chat/route.ts:17 | The prompt has no edge whitespace and is the pieces joined by a blank line with only surrounding whitespace removed |
| ChatRoute.PromptPartsPipeline | app/api/chat/route.ts:16-17 | The prompt pieces are the contents of the system messages, in order, with the empty ones dropped |
| ChatRoute.BuildRequest | app/api/chat/route.ts:24-30 | The system field is present exactly when the prompt is non-empty, and then equals it. The forwarded messages are the non-system ones, in order, repeats included: their number is the input's less its system messages |
| ChatRoute.JoinAllWhitespace | app/api/chat/route.ts:17 | With a whitespace separator, a join is blank exactly when every part is |
| ChatRoute.NoSystemIffBlank | app/api/chat/route.ts:17-28 | The request carries no system prompt exactly when every system message is blank |
| ExaSearchRoute.Prefixed | app/api/exawebsearch/route.ts:17-18 | Each previous question gains the `Предыдущий вопрос: ` prefix, in order |
| ExaSearchRoute.ContextualQuery | app/api/exawebsearch/route.ts:15-21 | With no previous questions the query is sent alone |
| ExaSearchRoute.ContextualQueryLines | app/api/exawebsearch/route.ts:16-21 | The contextual query splits into one line per previous question, a blank line, and the lead-in with the query |
| ExaSearchRoute.ContextualQueryInjective | app/api/exawebsearch/route.ts:16-21 | Different single-line questions and histories give different contextual queries |
| ExaSearchRoute.Project | app/api/exawebsearch/route.ts:30-37 | The six passed-on fields are copied unchanged |
| ExaSearchRoute.Post | app/api/exawebsearch/route.ts:6-45 | An unreadable body gives 500 and a missing or empty query 400. Otherwise the engine is asked for the contextual query: a failure gives 500 with the prefixed message, and a success gives 200 with every hit projected, in order |
| ExaSearchFallback.Post | app/components/exawebsearch/route.ts:11-50 | A missing query gives 400. With no key configured the answer is 200 with the notice and no results. Otherwise the engine's hits for the contextual query are passed through, or 500 on failure |
| ExaSearchFallback.AgreesWithApiRoute | app/components/exawebsearch/route.ts:27-46 | With a key configured, both handlers give the same status and the same hits, one projected and one not |
| PageOld.SourceBlock | app/page_old.tsx:190 | A source block starts with its label `Источник [n]` |
| PageOld.SourceBlocks | app/page_old.tsx:189-190 | One block per result, numbered from 1 in result order |
| PageOld.SearchContext | app/page_old.tsx:188-192 | The context is empty exactly when there are no results, and otherwise starts with the header |
| PageOld.SearchContextShape | app/page_old.tsx:188-192 | With results, the context is the header, the joined blocks and the instructions, and the i-th block carries the label `[i+1]` |
| PageOld.SourceLabelsDistinct | app/page_old.tsx:190 | Different positions carry different labels |
| PageOld.LastN | app/page_old.tsx:173 | The last n entries, or all when fewer, as a suffix in order |
| PageOld.SentQueries | app/page_old.tsx:173 | The last five earlier questions are sent, or all of them when there are fewer, in order |
| PageOld.RecordQuery | app/page_old.tsx:207 | The list keeps at most five questions and ends with the newest |
| PageOld.LastNAppend | app/page_old.tsx:207 | Keeping the last n of a prefix before appending changes nothing about the last n of the whole |
| PageOld.ReplayKeepsLastFive | app/page_old.tsx:207 | After any run of searches, the list is the last five questions asked, oldest first |
| PageOld.NewChatTitleAsWritten | app/page_old.tsx:154 | As written: a long question gives its first 50 characters plus `...`, and a short one is followed by `Новый чат` |
| PageOld.NewChatTitleAsWrittenGluesDefault | app/page_old.tsx:154 | The question `hi` gives the title `hiНовый чат` |
| PageOld.NewChatTitle | app/page_old.tsx:154 | Corrected: a short question is its own title, and a long one gives its first 50 characters plus `...` |
| PageOld.NewChatTitleDiffers | app/page_old.tsx:154 | The two titles agree on every long question and differ on every short one |
| PageOld.EnsureChat | app/page_old.tsx:150-155 | A question blank after trimming stops the submit. With a chat open nothing changes. Otherwise a chat titled by the expression as written is created with the two clock readings as its dates, prepended and opened |
| PageOld.EnsureChatIntended | app/page_old.tsx:150-155 | The same step with the corrected title |
| PageOld.EnsureChatOpens | app/page_old.tsx:152-155 | Whenever the submit goes on, its chat is the open chat of the resulting state |
| PageOld.EnsureChatDiffers | app/page_old.tsx:150-155 | The as-written and corrected steps differ exactly when a short, non-blank question opens a new chat |
| FileText.LastPiece | lib/fileText.ts:4 | The last piece of splitting at dots is a dot-free suffix of the name, preceded by a dot when the name has one |
| FileText.Extension | lib/fileText.ts:4 | The extension has no dot. It is the lower-cased tail of the name after its last dot, or the whole lower-cased name when there is no dot |
| FileText.ExtensionAfterLastDot | lib/fileText.ts:4 | For any stem, the extension of `stem.tail`, with `tail` dot-free, is the lower-cased `tail` |
| FileText.UpperCaseExtension | lib/fileText.ts:4-6 | `X.PDF` has the extension `pdf`, so the PDF test ignores case |
| FileText.PdfPlaceholder | lib/fileText.ts:9 | The placeholder is `[PDF файл: `, then the whole file name, then `]` and the notice |
| FileText.PdfNameRoundTrip | lib/fileText.ts:9 | The file name can be read back from the placeholder |
| FileText.FileToText | lib/fileText.ts:1-16 | The type is never empty and a given type is kept. A PDF, by type or extension, gives the placeholder and `application/pdf` when no type is given. Any other file gives its contents and `text/<ext>`, or `text/plain` when the extension is empty |

## Left out

- Streaming and the typewriter display of answers: not part of the chat logic modelled here.
- IndexedDB, `idb` and local-storage plumbing: `openDB`, transactions, cursors, promises and JSON encoding. Each store is a `map` keyed by id, and the local-storage entry holds the list itself.
- Asynchrony and stale closures: each operation is one atomic step on the current state. Interleavings, such as a `setChats` updater running after another update, are not modelled.
- The failure paths of the browser stores, such as a rejected put, and the catch blocks that log them. In particular `clearAllChats` reloads the list when the store fails to clear; the store never fails in this model.
- Id and clock generation (`Date.now`, `Math.random`, `new Date()`): ids are parameters, and so is each clock reading; an operation that calls `new Date()` more than once takes one parameter per call, such as `createdAt` and `updatedAt`, or `storeNow` and `listNow`.
- Dates: ISO strings and `Date` objects are both integer milliseconds. The conversions `new Date(...)` and `toISOString()` are identities here. That includes the attached file's `updatedAt`, which the v2 upgrade rebuilds.
- `toLocaleDateString('ru-RU')` is a parameter of `ChatSidebar.FormatDate`.
- JsString.ToLower: lower-cases ASCII letters only; full Unicode case mapping is not modelled.
- Strings are sequences of characters, not of UTF-16 code units, so `slice(0, 50)` counts characters.
- The search engine, the language-model call (`streamText`) and `file.text()` are foreign calls. They become a function parameter, the returned request, and a `contents` parameter.
- Thrown errors inside the route handlers other than an unreadable body or a failed search. JSON values of the wrong type, such as a non-string title or a non-array `messages`, are not modelled. Request fields are typed strings, lists or missing.
- `/api/chat` with a body that has no `messages` throws before any response; the model takes the message list directly.
- `setCurrentChatId`, the React context providers and hooks, rendering and theming: no logic beyond assigning state.
- The older page's `handleSubmit` beyond the blank-question return, the new-chat step, the search request body and the question window: the UI state flags and the fetch wiring are not modelled.
- EnhancedManager.AddMessage: its own contract states only the unknown-id case; what it stores and how the list changes are stated by `EnhancedManager.AddMessageStores`.
- ExaSearchRoute.Post: the options `{ numResults: 5, text: true }` handed to the search engine are not modelled; the engine is a function of the query alone, so the cap of five results is not stated.
- ExaSearchFallback.Post: likewise, the options `{ type: "auto", text: true, numResults: 5 }` are not modelled, and the cap of five results is not stated.
- ChatModel.Touch: states the stamp and the id; the field-by-field effect of the spread is stated by `ChatModel.SpreadFields` and `ChatDb.UpdateChatFields`.

## Findings

| source | as written | input that shows it | evidently intended | confidence | as-written member | corrected member |
|---|---|---|---|---|---|---|
| app/page_old.tsx:154 | `input.slice(0, 50) + (input.length > 50 ? '...' : 'Новый чат')` appends the default title to every question of 50 characters or fewer | the question `hi` opens a chat titled `hiНовый чат` | the question itself as the title, with `...` only when it was cut, as `EnhancedChatManager.addMessage` derives titles | not executed | PageOld.NewChatTitleAsWritten, PageOld.EnsureChat, PageOld.NewChatTitleAsWrittenGluesDefault | PageOld.NewChatTitle, PageOld.EnsureChatIntended, PageOld.NewChatTitleDiffers, PageOld.EnsureChatDiffers |
| app/components/WorkingChatManager.tsx:96-109 with lib/db.ts:168-173 | the update object always has both `systemPrompt` and `attachedFile`, set to `undefined` when not given; the spread in `updateChat` then overwrites the stored values | changing only the prompt of a chat with an attached file erases the stored file while the list still shows it; attaching a file without a prompt resets the stored prompt to `''` | the store receives only the properties the caller gave, as the in-memory list does | not executed | WorkingManager.UpdateChatMetaAsWritten, WorkingManager.UpdateChatMetaAsWrittenDropsFile | WorkingManager.UpdateChatMeta, WorkingManager.UpdateChatMetaInStep |

=== FILE: chat_db.dfy ===
/**
 * The browser chat store of `lib/db.ts`: one object store of chat records
 * keyed by their `id` property. The database itself (opening, transactions,
 * cursors) is abstracted to a map from key to record.
 */
module ChatDb {
  import opened Wrappers
  import opened JsString
  import opened ChatModel

  /** The object store uses `id` as its key path: a record sits under its own id. */
  predicate KeyedById(m: map<string, Chat>) {
    forall k :: k in m ==> m[k].id == k
  }

  type Store = m: map<string, Chat> | KeyedById(m) witness map[]

  /** `systemPrompt ?? ''`: the normalisation every read and write applies. */
  function WithPrompt(c: Chat): (r: Chat)
    ensures r.systemPrompt.Some?
    ensures r == c.(systemPrompt := r.systemPrompt)
    ensures c.systemPrompt.Some? ==> r == c
    ensures c.systemPrompt.None? ==> r.systemPrompt == Some("")
  {
    c.(systemPrompt := Some(c.systemPrompt.GetOr("")))
  }

  /** `saveChat`: a put under the chat's id, with a missing prompt stored as ''. */
  function SaveChat(s: Store, c: Chat): (s': Store)
    ensures s'.Keys == s.Keys + {c.id}
    ensures s'[c.id] == WithPrompt(c)
    ensures forall k :: k in s && k != c.id ==> s'[k] == s[k]
  {
    s[c.id := WithPrompt(c)]
  }

  /** `getChat`: the stored record, read back with a missing prompt as ''. */
  function GetChat(s: Store, id: string): (r: Option<Chat>)
    ensures r.Some? <==> id in s
    ensures r.Some? ==> r.value == WithPrompt(s[id]) && r.value.id == id
  {
    if id in s then Some(WithPrompt(s[id])) else None
  }

  /** `deleteChat`: removes exactly that key. */
  function DeleteChat(s: Store, id: string): (s': Store)
    ensures s'.Keys == s.Keys - {id}
    ensures forall k :: k in s' ==> s'[k] == s[k]
  {
    s - {id}
  }

  /** `deleteAllChats`: clears the store. */
  function DeleteAllChats(s: Store): (s': Store)
    ensures s'.Keys == {}
  {
    map[]
  }

  /** `createChat`: a fresh record with no messages, an empty prompt and the
      default title when none is given, stored under its id. The id and the
      two clock readings (one per date property) are parameters. */
  function CreateChat(s: Store, title: Option<string>, id: string, createdAt: int, updatedAt: int): (r: (Store, Chat))
    ensures r.1.id == id && r.1.messages == [] && r.1.systemPrompt == Some("") && r.1.attachedFile == None
    ensures r.1.createdAt == createdAt && r.1.updatedAt == updatedAt
    ensures r.1.title == TitleOrDefault(title)
    ensures r.0.Keys == s.Keys + {id} && r.0[id] == r.1
    ensures forall k :: k in s && k != id ==> r.0[k] == s[k]
  {
    var chat := Chat(id, TitleOrDefault(title), [], Some(""), None, createdAt, updatedAt);
    (SaveChat(s, chat), chat)
  }

  /** `updateChat`: read the record, spread the updates over it, stamp
      `updatedAt` and save it again; nothing is written for an absent id. */
  function UpdateChat(s: Store, id: string, updates: ChatPatch, now: int): (s': Store)
    ensures id !in s ==> s' == s
    ensures id in s ==> s' == SaveChat(s, Touch(WithPrompt(s[id]), updates, now))
  {
    match GetChat(s, id)
    case None => s
    case Some(chat) => SaveChat(s, Touch(chat, updates, now))
  }

  /** What an update that keeps the id does, field by field: the stamp is
      `now`, every property the update carries replaces the stored one (an
      `undefined` prompt becomes ''), every other property is kept, and no
      other record moves. */
  lemma UpdateChatFields(s: Store, id: string, updates: ChatPatch, now: int)
    requires id in s && updates.id.Absent?
    ensures var s' := UpdateChat(s, id, updates, now);
            && s'.Keys == s.Keys
            && (forall k :: k in s && k != id ==> s'[k] == s[k])
            && s'[id].id == id
            && s'[id].updatedAt == now
            && s'[id].title == updates.title.Or(s[id].title)
            && s'[id].messages == updates.messages.Or(s[id].messages)
            && s'[id].systemPrompt == Some(updates.systemPrompt.Or(s[id].systemPrompt).GetOr(""))
            && s'[id].attachedFile == updates.attachedFile.Or(s[id].attachedFile)
            && s'[id].createdAt == updates.createdAt.Or(s[id].createdAt)
  {
  }

  /** The version-2 upgrade: every record is rewritten with `systemPrompt ?? ''`. */
  function UpgradeV2(s: Store, oldVersion: int): (s': Store)
    ensures oldVersion >= 2 ==> s' == s
    ensures oldVersion < 2 ==> s'.Keys == s.Keys
    ensures oldVersion < 2 ==> forall k :: k in s ==> s'[k].systemPrompt.Some? && s'[k] == s[k].(systemPrompt := s'[k].systemPrompt)
    ensures oldVersion < 2 ==> forall k :: k in s && s[k].systemPrompt.Some? ==> s'[k] == s[k]
    ensures oldVersion < 2 ==> forall k :: k in s && s[k].systemPrompt.None? ==> s'[k].systemPrompt == Some("")
  {
    if oldVersion < 2 then map k | k in s :: WithPrompt(s[k]) else s
  }

  /** After the upgrade every record reads back exactly as stored, and a
      second upgrade changes nothing. */
  lemma UpgradeV2Settles(s: Store, oldVersion: int)
    requires oldVersion < 2
    ensures forall id :: id in s ==> GetChat(UpgradeV2(s, oldVersion), id) == Some(UpgradeV2(s, oldVersion)[id])
    ensures UpgradeV2(UpgradeV2(s, oldVersion), oldVersion) == UpgradeV2(s, oldVersion)
  {
  }

  // ----- listing by recency -----

  /** The order `getAll` then the `updatedAt`-descending sort produces: newer
      first, and equal stamps in key order (the sort is stable and `getAll`
      returns records in key order). */
  predicate Before(a: Chat, b: Chat) {
    a.updatedAt > b.updatedAt || (a.updatedAt == b.updatedAt && LexLe(a.id, b.id))
  }

  predicate SortedByRecency(xs: seq<Chat>) {
    forall i, j :: 0 <= i < j < |xs| ==> Before(xs[i], xs[j])
  }

  lemma BeforeTotal(a: Chat, b: Chat)
    ensures Before(a, b) || Before(b, a)
  {
    LexLeTotal(a.id, b.id);
  }

  lemma BeforeTransitive(a: Chat, b: Chat, c: Chat)
    requires Before(a, b) && Before(b, c)
    ensures Before(a, c)
  {
    if a.updatedAt == b.updatedAt == c.updatedAt {
      LexLeTransitive(a.id, b.id, c.id);
    }
  }

  /** Insertion into a list sorted by recency. */
  function Insert(xs: seq<Chat>, c: Chat): (r: seq<Chat>)
    ensures |r| == |xs| + 1
    ensures forall x :: x in r <==> x in xs || x == c
  {
    if |xs| == 0 then [c]
    else if Before(c, xs[0]) then [c] + xs
    else [xs[0]] + Insert(xs[1..], c)
  }

  lemma {:induction false} InsertSorted(xs: seq<Chat>, c: Chat)
    requires SortedByRecency(xs)
    ensures SortedByRecency(Insert(xs, c))
  {
    if |xs| == 0 {
    } else if Before(c, xs[0]) {
      forall j | 0 <= j < |xs| ensures Before(c, xs[j]) {
        if j > 0 { BeforeTransitive(c, xs[0], xs[j]); }
      }
    } else {
      BeforeTotal(c, xs[0]);
      InsertSorted(xs[1..], c);
      var r := Insert(xs, c);
      var tail := Insert(xs[1..], c);
      assert r == [xs[0]] + tail;
      forall j | 0 <= j < |tail| ensures Before(xs[0], tail[j]) {
        assert tail[j] in tail;
      }
    }
  }

  /** `getAll` followed by the sort on `updatedAt`, descending. */
  method SortByRecency(s: Store) returns (out: seq<Chat>)
    ensures |out| == |s|
    ensures SortedByRecency(out)
    ensures forall i, j :: 0 <= i < j < |out| ==> out[i].updatedAt >= out[j].updatedAt
    ensures forall k :: k in s ==> s[k] in out
    ensures forall c :: c in out ==> c.id in s && s[c.id] == c
  {
    out := [];
    var pending := s.Keys;
    while pending != {}
      invariant pending <= s.Keys
      invariant |out| + |pending| == |s.Keys|
      invariant SortedByRecency(out)
      invariant forall k :: k in s.Keys - pending ==> s[k] in out
      invariant forall c :: c in out ==> c.id in s && c.id !in pending && s[c.id] == c
      decreases |pending|
    {
      var k :| k in pending;
      InsertSorted(out, s[k]);
      out := Insert(out, s[k]);
      pending := pending - {k};
    }
    assert |s| == |s.Keys|;
  }

  /** Every record with its prompt normalised; keys are unchanged. */
  function WithPromptAll(s: Store): (s': Store)
    ensures s'.Keys == s.Keys
    ensures forall k :: k in s ==> s'[k] == WithPrompt(s[k])
  {
    map k | k in s :: WithPrompt(s[k])
  }

  /** `getAllChats`: every stored chat once, newest first, each with its prompt
      read back as '' when none is stored. */
  method GetAllChats(s: Store) returns (out: seq<Chat>)
    ensures |out| == |s|
    ensures SortedByRecency(out)
    ensures forall i, j :: 0 <= i < j < |out| ==> out[i].updatedAt >= out[j].updatedAt
    ensures forall k :: k in s ==> WithPrompt(s[k]) in out
    ensures forall c :: c in out ==> c.id in s && c == WithPrompt(s[c.id])
    ensures forall i :: 0 <= i < |out| ==> out[i].systemPrompt.Some?
  {
    var normalised := WithPromptAll(s);
    assert |normalised| == |normalised.Keys| == |s.Keys| == |s|;
    out := SortByRecency(normalised);
    assert forall i :: 0 <= i < |out| ==> out[i] in out;
  }
}

=== FILE: chat_model.dfy ===
/**
 * The chat record shared by the client-side managers, the browser store and
 * the in-memory route stores, and the object-spread update applied to it.
 * Dates are integer milliseconds since the epoch.
 */
module ChatModel {
  import opened Wrappers

  datatype Role = User | Assistant | System

  datatype Message = Message(id: string, role: Role, content: string, timestamp: int)

  datatype AttachedFile = AttachedFile(name: string, mimeType: string, text: string, updatedAt: int)

  /** `systemPrompt` and `attachedFile` are optional properties of the record:
      `None` is a record without them (or with `undefined` in them). */
  datatype Chat = Chat(
    id: string,
    title: string,
    messages: seq<Message>,
    systemPrompt: Option<string>,
    attachedFile: Option<AttachedFile>,
    createdAt: int,
    updatedAt: int)

  /** The key the chat lists and stores look chats up by. */
  function ChatId(c: Chat): string {
    c.id
  }

  const DefaultTitle: string := "Новый чат"

  /** How many characters of the first message become the title. */
  const TitleLength: nat := 50

  /** `title || 'Новый чат'`: a missing or empty title falls back to the default. */
  function TitleOrDefault(title: Option<string>): (t: string)
    ensures t != ""
    ensures Truthy(title) ==> t == title.value
    ensures !Truthy(title) ==> t == DefaultTitle
  {
    if Truthy(title) then title.value else DefaultTitle
  }

  /** `content.slice(0, 50) + (content.length > 50 ? '...' : '')`. */
  function TitleFromContent(content: string): (t: string)
    ensures |t| <= TitleLength + 3
  {
    if |content| > TitleLength then content[..TitleLength] + "..." else content
  }

  /** A short message is its own title; a long one keeps its first fifty
      characters and gains an ellipsis, so the title always starts the message. */
  lemma TitleFromContentShape(content: string)
    ensures |content| <= TitleLength ==> TitleFromContent(content) == content
    ensures |content| > TitleLength ==>
              |TitleFromContent(content)| == TitleLength + 3 &&
              TitleFromContent(content)[..TitleLength] == content[..TitleLength] &&
              TitleFromContent(content)[TitleLength..] == "..."
  {
  }

  /** Deriving a title from a derived title changes nothing. */
  lemma TitleFromContentIdempotent(content: string)
    ensures TitleFromContent(TitleFromContent(content)) == TitleFromContent(content)
  {
    if |content| > TitleLength {
      var t := TitleFromContent(content);
      assert t[..TitleLength] == content[..TitleLength];
    }
  }

  // ----- object spread -----

  /** One property of an update object: absent, or present with a value
      (for an optional property the value may itself be `undefined`). */
  datatype Field<T> = Absent | Present(value: T) {
    function Or(current: T): T {
      match this
      case Absent => current
      case Present(v) => v
    }
  }

  /** A `Partial<Chat>` update object. */
  datatype ChatPatch = ChatPatch(
    id: Field<string>,
    title: Field<string>,
    messages: Field<seq<Message>>,
    systemPrompt: Field<Option<string>>,
    attachedFile: Field<Option<AttachedFile>>,
    createdAt: Field<int>,
    updatedAt: Field<int>)

  /** The empty update object `{}`. */
  const NoChange: ChatPatch := ChatPatch(Absent, Absent, Absent, Absent, Absent, Absent, Absent)

  /** `{ messages }` */
  function MessagesPatch(messages: seq<Message>): ChatPatch {
    NoChange.(messages := Present(messages))
  }

  /** `{ ...chat, ...patch }`: every property present in the patch wins. */
  function Spread(c: Chat, p: ChatPatch): Chat {
    Chat(
      p.id.Or(c.id),
      p.title.Or(c.title),
      p.messages.Or(c.messages),
      p.systemPrompt.Or(c.systemPrompt),
      p.attachedFile.Or(c.attachedFile),
      p.createdAt.Or(c.createdAt),
      p.updatedAt.Or(c.updatedAt))
  }

  /** `{ ...p, ...q }` on two update objects. */
  function Then(p: ChatPatch, q: ChatPatch): ChatPatch {
    ChatPatch(
      if q.id.Present? then q.id else p.id,
      if q.title.Present? then q.title else p.title,
      if q.messages.Present? then q.messages else p.messages,
      if q.systemPrompt.Present? then q.systemPrompt else p.systemPrompt,
      if q.attachedFile.Present? then q.attachedFile else p.attachedFile,
      if q.createdAt.Present? then q.createdAt else p.createdAt,
      if q.updatedAt.Present? then q.updatedAt else p.updatedAt)
  }

  /** `{ ...chat, ...updates, updatedAt: now }`: the update step every store uses. */
  function Touch(c: Chat, p: ChatPatch, now: int): (r: Chat)
    ensures r.updatedAt == now
    ensures p.id.Absent? ==> r.id == c.id
  {
    Spread(c, p).(updatedAt := now)
  }

  /** Spreading the empty object copies the chat. */
  lemma SpreadNoChange(c: Chat)
    ensures Spread(c, NoChange) == c
  {
  }

  /** Spreading two updates one after the other is spreading their merge. */
  lemma SpreadThen(c: Chat, p: ChatPatch, q: ChatPatch)
    ensures Spread(Spread(c, p), q) == Spread(c, Then(p, q))
  {
  }

  /** A property the patch does not mention keeps the chat's value; one it
      mentions takes the patch's value. */
  lemma SpreadFields(c: Chat, p: ChatPatch)
    ensures p.id.Absent? ==> Spread(c, p).id == c.id
    ensures p.id.Present? ==> Spread(c, p).id == p.id.value
    ensures p.title.Absent? ==> Spread(c, p).title == c.title
    ensures p.title.Present? ==> Spread(c, p).title == p.title.value
    ensures p.messages.Absent? ==> Spread(c, p).messages == c.messages
    ensures p.messages.Present? ==> Spread(c, p).messages == p.messages.value
    ensures p.systemPrompt.Absent? ==> Spread(c, p).systemPrompt == c.systemPrompt
    ensures p.systemPrompt.Present? ==> Spread(c, p).systemPrompt == p.systemPrompt.value
    ensures p.attachedFile.Absent? ==> Spread(c, p).attachedFile == c.attachedFile
    ensures p.attachedFile.Present? ==> Spread(c, p).attachedFile == p.attachedFile.value
    ensures p.createdAt.Absent? ==> Spread(c, p).createdAt == c.createdAt
    ensures p.createdAt.Present? ==> Spread(c, p).createdAt == p.createdAt.value
    ensures p.updatedAt.Absent? ==> Spread(c, p).updatedAt == c.updatedAt
    ensures p.updatedAt.Present? ==> Spread(c, p).updatedAt == p.updatedAt.value
  {
  }
}

=== FILE: chat_route.dfy ===
/**
 * The `/api/chat` handler up to the model call: system messages become one
 * system prompt and every other message is forwarded, in order. The model
 * call and the streamed reply are not modelled; the handler's result here is
 * the request it would hand to the model.
 */
module ChatRoute {
  import opened Wrappers
  import opened ChatModel
  import opened JsString
  import opened SplitJoin
  import opened KeyedList

  datatype ChatMessage = ChatMessage(role: Role, content: string)

  /** How many of the messages are system messages. */
  function SystemCount(ms: seq<ChatMessage>): (n: nat)
    ensures n <= |ms|
  {
    if |ms| == 0 then 0 else (if ms[0].role == System then 1 else 0) + SystemCount(ms[1..])
  }

  /** `messages.filter(m => m.role === 'system')` */
  function SystemMessages(ms: seq<ChatMessage>): (r: seq<ChatMessage>)
    ensures |r| == SystemCount(ms)
    ensures forall i :: 0 <= i < |r| ==> r[i].role == System
    ensures forall m :: m in ms && m.role == System ==> m in r
    ensures Subsequence(r, ms)
  {
    if |ms| == 0 then []
    else
      var rest := SystemMessages(ms[1..]);
      if ms[0].role == System then
        assert ([ms[0]] + rest)[1..] == rest;
        [ms[0]] + rest
      else rest
  }

  /** `messages.filter(m => m.role !== 'system')` */
  function Forwarded(ms: seq<ChatMessage>): (r: seq<ChatMessage>)
    ensures |r| == |ms| - SystemCount(ms)
    ensures forall i :: 0 <= i < |r| ==> r[i].role != System
    ensures forall m :: m in ms && m.role != System ==> m in r
    ensures Subsequence(r, ms)
  {
    if |ms| == 0 then []
    else
      var rest := Forwarded(ms[1..]);
      if ms[0].role != System then
        assert ([ms[0]] + rest)[1..] == rest;
        [ms[0]] + rest
      else rest
  }

  /** Each message lands in exactly one of the two groups. */
  lemma {:induction false} Partition(ms: seq<ChatMessage>)
    ensures |SystemMessages(ms)| + |Forwarded(ms)| == |ms|
    ensures multiset(SystemMessages(ms)) + multiset(Forwarded(ms)) == multiset(ms)
  {
    if |ms| > 0 {
      Partition(ms[1..]);
      assert ms == [ms[0]] + ms[1..];
    }
  }

  /** `.map(m => m.content).filter(Boolean)` over the system messages: their
      non-empty contents, in order. */
  function PromptParts(ms: seq<ChatMessage>): (r: seq<string>)
    ensures forall k :: 0 <= k < |r| ==> r[k] != ""
  {
    if |ms| == 0 then []
    else
      var rest := PromptParts(ms[1..]);
      if ms[0].role == System && ms[0].content != "" then [ms[0].content] + rest else rest
  }

  /** `.map(m => m.content)` */
  function Contents(ms: seq<ChatMessage>): (r: seq<string>)
    ensures |r| == |ms|
    ensures forall k :: 0 <= k < |r| ==> r[k] == ms[k].content
  {
    if |ms| == 0 then [] else [ms[0].content] + Contents(ms[1..])
  }

  /** How many of the strings are empty. */
  function EmptyCount(xs: seq<string>): (n: nat)
    ensures n <= |xs|
  {
    if |xs| == 0 then 0 else (if xs[0] == "" then 1 else 0) + EmptyCount(xs[1..])
  }

  /** `.filter(Boolean)` on strings: the non-empty ones, in order. */
  function NonEmpty(xs: seq<string>): (r: seq<string>)
    ensures |r| == |xs| - EmptyCount(xs)
    ensures Subsequence(r, xs)
    ensures forall k :: 0 <= k < |r| ==> r[k] != ""
    ensures forall x :: x in xs && x != "" ==> x in r
  {
    if |xs| == 0 then []
    else
      var rest := NonEmpty(xs[1..]);
      if xs[0] != "" then
        assert ([xs[0]] + rest)[1..] == rest;
        [xs[0]] + rest
      else rest
  }

  /** The prompt pieces are the three-stage pipeline of the handler: pick the
      system messages, take their contents, drop the empty ones. */
  lemma {:induction false} PromptPartsPipeline(ms: seq<ChatMessage>)
    ensures PromptParts(ms) == NonEmpty(Contents(SystemMessages(ms)))
  {
    if |ms| > 0 {
      PromptPartsPipeline(ms[1..]);
      var sys := SystemMessages(ms[1..]);
      if ms[0].role == System {
        var all := [ms[0]] + sys;
        assert Contents(all)[1..] == Contents(sys) by {
          assert all[1..] == sys;
        }
        assert Contents(all)[0] == ms[0].content;
      }
    }
  }

  const PromptSeparator: string := "\n\n"

  /** The joined and trimmed system prompt: the pieces joined by a blank
      line, with only surrounding whitespace removed. */
  function SystemPrompt(ms: seq<ChatMessage>): (p: string)
    ensures NoEdgeWhitespace(p)
    ensures Padded(Join(PromptParts(ms), PromptSeparator), p)
  {
    Trim(Join(PromptParts(ms), PromptSeparator))
  }

  /** What the handler sends to the model: the prompt (`undefined` when empty)
      and the forwarded messages. */
  datatype ModelRequest = ModelRequest(system: Option<string>, messages: seq<ChatMessage>)

  function BuildRequest(ms: seq<ChatMessage>): (r: ModelRequest)
    ensures r.system.None? <==> SystemPrompt(ms) == ""
    ensures r.system.Some? ==> r.system.value == SystemPrompt(ms) && NoEdgeWhitespace(r.system.value)
    ensures forall i :: 0 <= i < |r.messages| ==> r.messages[i].role != System
    ensures Subsequence(r.messages, ms)
    ensures |r.messages| == |ms| - SystemCount(ms)
    ensures forall m :: m in ms && m.role != System ==> m in r.messages
  {
    var p := SystemPrompt(ms);
    ModelRequest(if |p| > 0 then Some(p) else None, Forwarded(ms))
  }

  /** Whitespace-only is preserved by concatenation, in both directions. */
  lemma AllWhitespaceConcat(a: string, b: string)
    ensures AllWhitespace(a + b) <==> AllWhitespace(a) && AllWhitespace(b)
  {
    var s := a + b;
    if AllWhitespace(s) {
      forall k | 0 <= k < |a| ensures IsWhitespace(a[k]) {
        assert a[k] == s[k];
      }
      forall k | 0 <= k < |b| ensures IsWhitespace(b[k]) {
        assert b[k] == s[|a| + k];
      }
    }
  }

  /** Every part is blank. */
  predicate AllBlank(parts: seq<string>) {
    forall k :: 0 <= k < |parts| ==> AllWhitespace(parts[k])
  }

  /** With a whitespace separator, a join is blank exactly when every part is. */
  lemma {:induction false} JoinAllWhitespace(parts: seq<string>, sep: string)
    requires AllWhitespace(sep)
    ensures AllWhitespace(Join(parts, sep)) <==> AllBlank(parts)
    decreases |parts|
  {
    if |parts| > 1 {
      JoinAllWhitespace(parts[1..], sep);
      AllWhitespaceConcat(parts[0] + sep, Join(parts[1..], sep));
      AllWhitespaceConcat(parts[0], sep);
      BlankCons(parts);
    }
  }

  /** A sequence is all blank exactly when its head and its tail are. */
  lemma BlankCons(parts: seq<string>)
    requires |parts| > 0
    ensures AllBlank(parts) <==> AllWhitespace(parts[0]) && AllBlank(parts[1..])
  {
    if AllWhitespace(parts[0]) && AllBlank(parts[1..]) {
      forall k | 0 <= k < |parts| ensures AllWhitespace(parts[k]) {
        if k > 0 { assert parts[k] == parts[1..][k - 1]; }
      }
    }
  }

  /** Every system message is blank. */
  predicate SystemBlank(ms: seq<ChatMessage>) {
    forall i :: 0 <= i < |ms| && ms[i].role == System ==> AllWhitespace(ms[i].content)
  }

  /** A list is system-blank exactly when its head and its tail are. */
  lemma SystemBlankCons(ms: seq<ChatMessage>)
    requires |ms| > 0
    ensures SystemBlank(ms) <==> (ms[0].role == System ==> AllWhitespace(ms[0].content)) && SystemBlank(ms[1..])
  {
    if (ms[0].role == System ==> AllWhitespace(ms[0].content)) && SystemBlank(ms[1..]) {
      forall i | 0 <= i < |ms| && ms[i].role == System ensures AllWhitespace(ms[i].content) {
        if i > 0 { assert ms[i] == ms[1..][i - 1]; }
      }
    }
    if SystemBlank(ms) {
      forall i | 0 <= i < |ms[1..]| && ms[1..][i].role == System ensures AllWhitespace(ms[1..][i].content) {
        assert ms[1..][i] == ms[i + 1];
      }
    }
  }

  lemma {:induction false} PromptPartsBlank(ms: seq<ChatMessage>)
    ensures AllBlank(PromptParts(ms)) <==> SystemBlank(ms)
  {
    if |ms| > 0 {
      PromptPartsBlank(ms[1..]);
      SystemBlankCons(ms);
      var rest := PromptParts(ms[1..]);
      if ms[0].role == System && ms[0].content != "" {
        var r := [ms[0].content] + rest;
        assert r[1..] == rest;
        BlankCons(r);
      } else if ms[0].role == System {
        assert AllWhitespace(ms[0].content);
      }
    }
  }

  /** The request carries no system prompt exactly when every system message
      is blank (or there are none). */
  lemma NoSystemIffBlank(ms: seq<ChatMessage>)
    ensures BuildRequest(ms).system.None? <==> SystemBlank(ms)
  {
    PromptPartsBlank(ms);
    assert AllWhitespace(PromptSeparator) by {
      assert IsWhitespace(PromptSeparator[0]) && IsWhitespace(PromptSeparator[1]);
    }
    JoinAllWhitespace(PromptParts(ms), PromptSeparator);
    TrimEmptyIff(Join(PromptParts(ms), PromptSeparator));
  }
}

=== FILE: chat_sidebar.dfy ===
/**
 * The sidebar listing the stored chats: loading, deleting after a
 * confirmation, creating with a guard against a second click while a
 * creation is under way, and the relative date shown beside each chat.
 */
module ChatSidebar {
  import opened Wrappers
  import opened ChatModel
  import ChatDb
  import opened KeyedList
  import Decimal

  datatype State = State(store: ChatDb.Store, chats: seq<Chat>, isLoading: bool, isCreating: bool)

  /** Loading on mount: every stored chat, newest first; loading ends. */
  method LoadChats(store: ChatDb.Store) returns (st: State)
    ensures st.store == store && !st.isLoading && !st.isCreating
    ensures |st.chats| == |store| && ChatDb.SortedByRecency(st.chats)
    ensures forall c :: c in st.chats ==> c.id in store && c == ChatDb.WithPrompt(store[c.id])
    ensures forall k :: k in store ==> ChatDb.WithPrompt(store[k]) in st.chats
  {
    var all := ChatDb.GetAllChats(store);
    st := State(store, all, false, false);
  }

  /** `handleDeleteChat`: without confirmation nothing happens; otherwise the
      chat leaves the store and the list, and the second component says
      whether `onNewChat` is called (the deleted chat was the open one). */
  function HandleDeleteChat(st: State, currentChatId: Option<string>, chatId: string, confirmed: bool): (r: (State, bool))
    ensures !confirmed ==> r == (st, false)
    ensures confirmed ==> r.0.store.Keys == st.store.Keys - {chatId}
    ensures confirmed ==> forall k :: k in r.0.store ==> r.0.store[k] == st.store[k]
    ensures confirmed ==> forall i :: 0 <= i < |r.0.chats| ==> r.0.chats[i].id != chatId
    ensures confirmed ==> forall c :: c in st.chats && c.id != chatId ==> c in r.0.chats
    ensures confirmed ==> Subsequence(r.0.chats, st.chats)
    ensures confirmed ==> |r.0.chats| == |st.chats| - CountKey(st.chats, ChatId, chatId)
    ensures r.0.isLoading == st.isLoading && r.0.isCreating == st.isCreating
    ensures r.1 <==> confirmed && currentChatId == Some(chatId)
  {
    if !confirmed then (st, false)
    else
      (st.(store := ChatDb.DeleteChat(st.store, chatId), chats := Without(st.chats, ChatId, chatId)),
       currentChatId == Some(chatId))
  }

  /** Deleting a chat a second time changes nothing more. */
  lemma HandleDeleteChatIdempotent(st: State, currentChatId: Option<string>, chatId: string)
    ensures var once := HandleDeleteChat(st, currentChatId, chatId, true).0;
            HandleDeleteChat(once, currentChatId, chatId, true).0 == once
  {
    var once := HandleDeleteChat(st, currentChatId, chatId, true).0;
    WithoutIdempotent(st.chats, ChatId, chatId);
    assert ChatDb.DeleteChat(once.store, chatId) == once.store;
  }

  /** The click on "new chat": ignored while a creation is under way,
      otherwise it starts one. The result says whether it started. */
  function BeginCreate(st: State): (r: (State, bool))
    ensures r.1 <==> !st.isCreating
    ensures r.0.isCreating
    ensures r.0.store == st.store && r.0.chats == st.chats
  {
    if st.isCreating then (st, false) else (st.(isCreating := true), true)
  }

  /** The end of `handleCreateNewChat`: the created chat (default title) is
      stored, listed first and handed to `onChatSelect` (the second
      component), and the guard is released. Its two dates are two clock
      readings. */
  function FinishCreate(st: State, id: string, createdAt: int, updatedAt: int): (r: (State, Chat))
    ensures !r.0.isCreating && r.0.isLoading == st.isLoading
    ensures r.1.id == id && r.1.title == DefaultTitle && r.1.messages == []
    ensures r.1.systemPrompt == Some("") && r.1.attachedFile == None
    ensures r.1.createdAt == createdAt && r.1.updatedAt == updatedAt
    ensures r.0.chats == [r.1] + st.chats
    ensures r.0.store.Keys == st.store.Keys + {id} && r.0.store[id] == r.1
    ensures forall k :: k in st.store && k != id ==> r.0.store[k] == st.store[k]
  {
    var (store', created) := ChatDb.CreateChat(st.store, None, id, createdAt, updatedAt);
    (st.(store := store', chats := [created] + st.chats, isCreating := false), created)
  }

  /** Two clicks before the first creation finishes create one chat. */
  lemma DoubleClickCreatesOnce(st: State, id: string, createdAt: int, updatedAt: int)
    requires !st.isCreating
    ensures var (s1, started1) := BeginCreate(st);
            var (s2, started2) := BeginCreate(s1);
            && started1 && !started2
            && |FinishCreate(s2, id, createdAt, updatedAt).0.chats| == |st.chats| + 1
  {
  }

  // ----- relative dates -----

  const MsPerDay: int := 1000 * 60 * 60 * 24

  /** `diff` milliseconds fall in the `d`-th whole day. */
  predicate WithinDay(diff: int, d: int) {
    d * MsPerDay <= diff < (d + 1) * MsPerDay
  }

  /** `Math.floor(diff / MsPerDay)` is the one day `diff` falls in. */
  lemma FloorDays(diff: int)
    ensures WithinDay(diff, diff / MsPerDay)
    ensures forall d :: WithinDay(diff, d) ==> d == diff / MsPerDay
  {
    var q := diff / MsPerDay;
    forall d | WithinDay(diff, d) ensures d == q {
    }
  }

  /** The label for a chat dated `date`, seen at `now` (both in milliseconds).
      `localeDate` is the `ru-RU` rendering of the date, used for a week or
      more. Whole days are counted with `Math.floor`, so a date in the future
      gives a negative count. */
  function FormatDate(now: int, date: int, localeDate: string): (r: string)
    ensures WithinDay(now - date, 0) ==> r == "Сегодня"
    ensures WithinDay(now - date, 1) ==> r == "Вчера"
    ensures forall d :: (d < 0 || 2 <= d < 7) && WithinDay(now - date, d) ==>
              r == Decimal.IntToString(d) + " дней назад"
    ensures 7 * MsPerDay <= now - date ==> r == localeDate
  {
    var days := (now - date) / MsPerDay;
    FloorDays(now - date);
    if days == 0 then "Сегодня"
    else if days == 1 then "Вчера"
    else if days < 7 then Decimal.IntToString(days) + " дней назад"
    else localeDate
  }

  /** A date in the future reads as a negative number of days ago. */
  lemma FutureDateIsNegative(now: int, date: int, localeDate: string)
    requires date > now
    ensures FormatDate(now, date, localeDate)[0] == '-'
  {
    var days := (now - date) / MsPerDay;
    assert days < 0;
  }
}

=== FILE: chats_route.dfy ===
/**
 * The `/api/chats` handlers over a module-level `Map` from id to chat. Each
 * handler takes the map and the request and gives back the new map and the
 * response's status and payload. A request body that is not JSON (or not an
 * object) is `None`: `req.json()` or the destructuring throws and the
 * handler answers 500.
 */
module ChatsRoute {
  import opened Wrappers
  import opened ChatModel
  import JsMap

  type Chats = JsMap.Map<Chat>

  datatype Payload =
    | ChatList(chats: seq<Chat>)
    | Created(chat: Chat)
    | Ok
    | OkDeleted(deletedCount: nat)
    | Failure(error: string)

  datatype Response = Response(status: int, payload: Payload)

  /** `GET`: every chat, in insertion order. */
  function Get(m: Chats): (r: Response)
    ensures r.status == 200 && r.payload.ChatList?
    ensures |r.payload.chats| == JsMap.Size(m)
    ensures forall i :: 0 <= i < |m| ==> r.payload.chats[i] == m[i].value
  {
    Response(200, ChatList(JsMap.Values(m)))
  }

  /** The record `POST` creates: no messages, the title or the default, and
      one clock reading per date. */
  function NewRecord(title: Option<string>, id: string, createdAt: int, updatedAt: int): (c: Chat)
    ensures c.id == id && c.messages == [] && c.title == TitleOrDefault(title)
    ensures c.createdAt == createdAt && c.updatedAt == updatedAt
  {
    Chat(id, TitleOrDefault(title), [], None, None, createdAt, updatedAt)
  }

  /** `POST { title }`: store a new chat under its fresh id and return it. */
  function Post(m: Chats, body: Option<Option<string>>, id: string, createdAt: int, updatedAt: int): (r: (Chats, Response))
    ensures body.None? ==> r.0 == m && r.1.status == 500
    ensures body.Some? ==>
              && r.1 == Response(200, Created(NewRecord(body.value, id, createdAt, updatedAt)))
              && JsMap.Get(r.0, id) == Some(NewRecord(body.value, id, createdAt, updatedAt))
              && (forall k :: k != id ==> JsMap.Get(r.0, k) == JsMap.Get(m, k))
  {
    match body
    case None => (m, Response(500, Failure("Failed to create chat")))
    case Some(title) =>
      var chat := NewRecord(title, id, createdAt, updatedAt);
      (JsMap.Set(m, chat.id, chat), Response(200, Created(chat)))
  }

  /** `DELETE ?id`: without an id, empty the map and report how many chats it
      held; with one, remove it and report success whether or not it was there. */
  function Delete(m: Chats, id: Option<string>): (r: (Chats, Response))
    ensures !Truthy(id) ==> r.1 == Response(200, OkDeleted(JsMap.Size(m))) && forall k :: !JsMap.Has(r.0, k)
    ensures Truthy(id) ==> r.1 == Response(200, Ok)
    ensures Truthy(id) ==> !JsMap.Has(r.0, id.value) && forall k :: k != id.value ==> JsMap.Get(r.0, k) == JsMap.Get(m, k)
  {
    if !Truthy(id) then
      (JsMap.Clear(m), Response(200, OkDeleted(JsMap.Size(m))))
    else
      (JsMap.Delete(m, id.value).0, Response(200, Ok))
  }

  /** The JSON body of `PUT`: the id and the update object. */
  datatype PutBody = PutBody(id: Option<string>, updates: ChatPatch)

  /** `PUT { id, updates }`: 400 without an id, 404 for an unknown one,
      otherwise the stored chat with the updates spread over it and a fresh
      stamp, stored back under the same id. */
  function Put(m: Chats, body: Option<PutBody>, now: int): (r: (Chats, Response))
    ensures r.1.status != 200 ==> r.0 == m
    ensures body.None? ==> r.1.status == 500
    ensures body.Some? && !Truthy(body.value.id) ==> r.1.status == 400
    ensures body.Some? && Truthy(body.value.id) && !JsMap.Has(m, body.value.id.value) ==> r.1.status == 404
    ensures body.Some? && Truthy(body.value.id) && JsMap.Has(m, body.value.id.value) ==>
              var id := body.value.id.value;
              && r.1 == Response(200, Ok)
              && JsMap.Get(r.0, id) == Some(Touch(JsMap.Get(m, id).value, body.value.updates, now))
              && JsMap.Keys(r.0) == JsMap.Keys(m)
              && (forall k :: k != id ==> JsMap.Get(r.0, k) == JsMap.Get(m, k))
  {
    match body
    case None => (m, Response(500, Failure("Failed to update chat")))
    case Some(PutBody(id, updates)) =>
      if !Truthy(id) then (m, Response(400, Failure("Chat ID is required")))
      else match JsMap.Get(m, id.value)
        case None => (m, Response(404, Failure("Chat not found")))
        case Some(existing) =>
          (JsMap.Set(m, id.value, Touch(existing, updates, now)), Response(200, Ok))
  }
}

=== FILE: decimal.dfy ===
/** Decimal rendering of integers, as JavaScript template literals print them. */
module Decimal {
  import opened Wrappers

  predicate IsDigit(c: char) {
    '0' <= c <= '9'
  }

  predicate AllDigits(s: string) {
    forall i :: 0 <= i < |s| ==> IsDigit(s[i])
  }

  function DigitValue(c: char): nat
    requires IsDigit(c)
  {
    c as int - '0' as int
  }

  function DigitChar(d: nat): (c: char)
    requires d < 10
    ensures IsDigit(c) && DigitValue(c) == d
  {
    ('0' as int + d) as char
  }

  /** The value of a string of digits, most significant first. */
  function DigitsValue(s: string): nat
    requires AllDigits(s)
  {
    if |s| == 0 then 0 else DigitsValue(s[..|s| - 1]) * 10 + DigitValue(s[|s| - 1])
  }

  /** `String(n)` for a non-negative integer: shortest digits, no leading zero. */
  function NatToString(n: nat): (r: string)
    ensures |r| >= 1 && AllDigits(r)
    ensures |r| > 1 ==> r[0] != '0'
  {
    if n < 10 then [DigitChar(n)] else NatToString(n / 10) + [DigitChar(n % 10)]
  }

  /** Reading back the digits gives the number. */
  lemma {:induction false} NatToStringRoundTrip(n: nat)
    ensures DigitsValue(NatToString(n)) == n
  {
    if n >= 10 {
      var r := NatToString(n);
      assert r[..|r| - 1] == NatToString(n / 10);
      NatToStringRoundTrip(n / 10);
    }
  }

  /** Different numbers never print alike. */
  lemma NatToStringInjective(a: nat, b: nat)
    requires NatToString(a) == NatToString(b)
    ensures a == b
  {
    NatToStringRoundTrip(a);
    NatToStringRoundTrip(b);
  }

  /** `String(i)` for any integer: a minus sign before the magnitude when negative. */
  function IntToString(i: int): (r: string)
    ensures |r| >= 1
    ensures r[0] == '-' <==> i < 0
  {
    if i < 0 then "-" + NatToString(-i) else NatToString(i)
  }

  /** Reading an optionally signed decimal numeral. */
  function ParseInt(s: string): Option<int> {
    if |s| > 0 && s[0] == '-' then
      if |s| > 1 && AllDigits(s[1..]) then Some(-(DigitsValue(s[1..]) as int)) else None
    else if |s| > 0 && AllDigits(s) then Some(DigitsValue(s))
    else None
  }

  /** Printing an integer and reading it back gives it again. */
  lemma IntToStringRoundTrip(i: int)
    ensures ParseInt(IntToString(i)) == Some(i)
  {
    if i < 0 {
      var r := IntToString(i);
      assert r[1..] == NatToString(-i);
      NatToStringRoundTrip(-i);
    } else {
      NatToStringRoundTrip(i);
    }
  }
}

=== FILE: deepseek_save_route.dfy ===
/**
 * The `/api/deepseek-save` handlers: a stand-in remote store over a
 * module-level `Map` from chat id to chat. A body that is not JSON is `None`
 * and answers 500. A missing `messages` (or `null`) is `None`; an empty list
 * is present.
 */
module DeepseekSaveRoute {
  import opened Wrappers
  import opened ChatModel
  import JsMap

  type Storage = JsMap.Map<Chat>

  datatype Payload =
    | Saved(chatId: string, messageCount: nat, savedAt: int)
    | One(chat: Chat)
    | All(chats: seq<Chat>)
    | Deleted
    | Failure(error: string)

  datatype Response = Response(status: int, payload: Payload)

  datatype SaveBody = SaveBody(chatId: Option<string>, messages: Option<seq<Message>>, title: Option<string>)

  /** The record `POST` stores, with one clock reading per date. */
  function SavedRecord(chatId: string, messages: seq<Message>, title: Option<string>, createdAt: int, updatedAt: int): (c: Chat)
    ensures c.id == chatId && c.messages == messages && c.title == TitleOrDefault(title)
    ensures c.createdAt == createdAt && c.updatedAt == updatedAt
  {
    Chat(chatId, TitleOrDefault(title), messages, None, None, createdAt, updatedAt)
  }

  /** `POST { chatId, messages, title }`: 400 unless both an id and a message
      list are given; otherwise store (or overwrite) the chat under its id and
      report how many messages it has. The record's two dates and the
      reported `savedAt` are three clock readings. */
  function Post(m: Storage, body: Option<SaveBody>, createdAt: int, updatedAt: int, savedAt: int): (r: (Storage, Response))
    ensures r.1.status != 200 ==> r.0 == m
    ensures body.None? ==> r.1.status == 500
    ensures body.Some? && (!Truthy(body.value.chatId) || body.value.messages.None?) ==> r.1.status == 400
    ensures body.Some? && Truthy(body.value.chatId) && body.value.messages.Some? ==>
              var b := body.value;
              && r.1 == Response(200, Saved(b.chatId.value, |b.messages.value|, savedAt))
              && JsMap.Get(r.0, b.chatId.value) == Some(SavedRecord(b.chatId.value, b.messages.value, b.title, createdAt, updatedAt))
              && (forall k :: k != b.chatId.value ==> JsMap.Get(r.0, k) == JsMap.Get(m, k))
  {
    match body
    case None => (m, Response(500, Failure("Не удалось сохранить чат")))
    case Some(SaveBody(chatId, messages, title)) =>
      if !Truthy(chatId) || messages.None? then
        (m, Response(400, Failure("chatId и messages обязательны")))
      else
        var chat := SavedRecord(chatId.value, messages.value, title, createdAt, updatedAt);
        (JsMap.Set(m, chatId.value, chat), Response(200, Saved(chatId.value, |messages.value|, savedAt)))
  }

  /** `GET ?id`: the one chat (404 when unknown), or every chat when no id is given. */
  function Get(m: Storage, id: Option<string>): (r: Response)
    ensures Truthy(id) && JsMap.Has(m, id.value) ==> r == Response(200, One(JsMap.Get(m, id.value).value))
    ensures Truthy(id) && !JsMap.Has(m, id.value) ==> r.status == 404
    ensures !Truthy(id) ==> r.status == 200 && r.payload.All? && r.payload.chats == JsMap.Values(m)
  {
    if Truthy(id) then
      match JsMap.Get(m, id.value)
      case None => Response(404, Failure("Чат не найден"))
      case Some(chat) => Response(200, One(chat))
    else
      Response(200, All(JsMap.Values(m)))
  }

  /** `DELETE ?id`: 400 without an id, 404 when nothing was deleted, otherwise
      exactly that key is gone. */
  function Delete(m: Storage, id: Option<string>): (r: (Storage, Response))
    ensures !Truthy(id) ==> r == (m, Response(400, Failure("chatId обязателен")))
    ensures Truthy(id) && !JsMap.Has(m, id.value) ==> r.0 == m && r.1.status == 404
    ensures Truthy(id) && JsMap.Has(m, id.value) ==>
              && r.1 == Response(200, Deleted)
              && !JsMap.Has(r.0, id.value)
              && (forall k :: k != id.value ==> JsMap.Get(r.0, k) == JsMap.Get(m, k))
  {
    if !Truthy(id) then (m, Response(400, Failure("chatId обязателен")))
    else
      var (m', deleted) := JsMap.Delete(m, id.value);
      if !deleted then (m', Response(404, Failure("Чат не найден")))
      else (m', Response(200, Deleted))
  }

  /** A chat saved and then fetched by its id comes back as saved. */
  lemma PostThenGet(m: Storage, b: SaveBody, createdAt: int, updatedAt: int, savedAt: int)
    requires Truthy(b.chatId) && b.messages.Some?
    ensures var (m', _) := Post(m, Some(b), createdAt, updatedAt, savedAt);
            Get(m', b.chatId) == Response(200, One(SavedRecord(b.chatId.value, b.messages.value, b.title, createdAt, updatedAt)))
  {
  }

  /** Saving and then deleting the same id leaves every other chat as it was,
      and a second delete finds nothing. */
  lemma PostThenDelete(m: Storage, b: SaveBody, createdAt: int, updatedAt: int, savedAt: int)
    requires Truthy(b.chatId) && b.messages.Some?
    ensures var (m1, _) := Post(m, Some(b), createdAt, updatedAt, savedAt);
            var (m2, r2) := Delete(m1, b.chatId);
            && r2.status == 200
            && (forall k :: k != b.chatId.value ==> JsMap.Get(m2, k) == JsMap.Get(m, k))
            && Delete(m2, b.chatId).1.status == 404
  {
  }
}

=== FILE: enhanced_manager.dfy ===
/**
 * The earlier IndexedDB chat manager: an in-memory list of chats, the id of
 * the open chat, and its own object store keyed by `id` that saves records
 * exactly as given (no prompt normalisation). Its chats never carry a prompt
 * or a file, so those fields stay `None` unless an update object sets them.
 */
module EnhancedManager {
  import opened Wrappers
  import opened ChatModel
  import ChatDb
  import opened KeyedList

  datatype State = State(db: ChatDb.Store, chats: seq<Chat>, currentId: Option<string>)

  /** Every listed chat is stored, as listed. */
  predicate Persisted(st: State) {
    forall c :: c in st.chats ==> c.id in st.db && st.db[c.id] == c
  }

  /** `ChatDB.saveChat`: a put under the record's own id. */
  function Save(db: ChatDb.Store, c: Chat): (db': ChatDb.Store)
    ensures db'.Keys == db.Keys + {c.id} && db'[c.id] == c
    ensures forall k :: k in db && k != c.id ==> db'[k] == db[k]
  {
    db[c.id := c]
  }

  /** Loading on mount: `getAllChats`, newest first. */
  method LoadChats(db: ChatDb.Store) returns (st: State)
    ensures st.db == db && st.currentId == None
    ensures |st.chats| == |db|
    ensures ChatDb.SortedByRecency(st.chats)
    ensures forall i, j :: 0 <= i < j < |st.chats| ==> st.chats[i].updatedAt >= st.chats[j].updatedAt
    ensures forall k :: k in db ==> db[k] in st.chats
    ensures Persisted(st)
  {
    var all := ChatDb.SortByRecency(db);
    st := State(db, all, None);
  }

  /** `createNewChat`: a fresh empty chat, saved, listed first and opened.
      Its two dates are two clock readings. */
  function CreateNewChat(st: State, title: Option<string>, id: string, createdAt: int, updatedAt: int): (r: (State, Chat))
    ensures r.1 == Chat(id, TitleOrDefault(title), [], None, None, createdAt, updatedAt)
    ensures r.0.chats == [r.1] + st.chats
    ensures r.0.currentId == Some(id)
    ensures r.0.db.Keys == st.db.Keys + {id} && r.0.db[id] == r.1
    ensures forall k :: k in st.db && k != id ==> r.0.db[k] == st.db[k]
  {
    var newChat := Chat(id, TitleOrDefault(title), [], None, None, createdAt, updatedAt);
    (State(Save(st.db, newChat), [newChat] + st.chats, Some(newChat.id)), newChat)
  }

  lemma CreateNewChatPersisted(st: State, title: Option<string>, id: string, createdAt: int, updatedAt: int)
    requires Persisted(st) && id !in st.db
    ensures Persisted(CreateNewChat(st, title, id, createdAt, updatedAt).0)
  {
    var r := CreateNewChat(st, title, id, createdAt, updatedAt).0;
    forall c | c in r.chats ensures c.id in r.db && r.db[c.id] == c {
      if c != r.chats[0] {
        assert c in st.chats;
      }
    }
  }

  /** `updateChat`: the listed chat (an unlisted id does nothing) with the
      updates spread over it and a fresh stamp, saved under its resulting id
      and put in place of every listed chat with the old id. */
  function UpdateChat(st: State, chatId: string, updates: ChatPatch, now: int): (r: State)
    ensures (forall c :: c in st.chats ==> c.id != chatId) ==> r == st
    ensures forall c :: c in st.chats && c.id == chatId ==>
              var u := Touch(Find(st.chats, ChatId, chatId).value, updates, now);
              && r.db == Save(st.db, u)
              && |r.chats| == |st.chats|
              && (forall i :: 0 <= i < |st.chats| ==> r.chats[i] == if st.chats[i].id == chatId then u else st.chats[i])
    ensures r.currentId == st.currentId
  {
    match Find(st.chats, ChatId, chatId)
    case None => st
    case Some(chat) =>
      var updated := Touch(chat, updates, now);
      State(Save(st.db, updated), ReplaceWhere(st.chats, ChatId, chatId, _ => updated), st.currentId)
  }

  /** An update that keeps the id keeps every listed chat stored. */
  lemma UpdateChatPersisted(st: State, chatId: string, updates: ChatPatch, now: int)
    requires Persisted(st) && updates.id.Absent?
    ensures Persisted(UpdateChat(st, chatId, updates, now))
  {
    var r := UpdateChat(st, chatId, updates, now);
    forall c | c in r.chats ensures c.id in r.db && r.db[c.id] == c {
      var i :| 0 <= i < |r.chats| && r.chats[i] == c;
      assert st.chats[i] in st.chats;
    }
  }

  /** `addMessage`: append a message to a listed chat; the first user message
      of an empty chat also becomes its title. The message is stamped at
      `msgNow`; the update that saves it takes its own reading `now`. */
  function AddMessage(st: State, chatId: string, msgId: string, role: Role, content: string, msgNow: int, now: int): (r: State)
    ensures (forall c :: c in st.chats ==> c.id != chatId) ==> r == st
  {
    match Find(st.chats, ChatId, chatId)
    case None => st
    case Some(chat) =>
      var updatedMessages := chat.messages + [Message(msgId, role, content, msgNow)];
      var title := if |chat.messages| == 0 && role == User then TitleFromContent(content) else chat.title;
      UpdateChat(st, chatId, NoChange.(messages := Present(updatedMessages), title := Present(title)), now)
  }

  /** What `addMessage` stores: the message appended at the end, the title
      taken from the first user message and kept otherwise, everything else
      but the stamp untouched; no other stored chat changes. In the list,
      every chat with the id becomes the saved record, the others stay in
      place, and the open chat is unchanged. */
  lemma AddMessageStores(st: State, chatId: string, msgId: string, role: Role, content: string, msgNow: int, now: int)
    requires exists c :: c in st.chats && c.id == chatId
    ensures var chat := Find(st.chats, ChatId, chatId).value;
            var r := AddMessage(st, chatId, msgId, role, content, msgNow, now);
            && chatId in r.db
            && r.db[chatId].messages == chat.messages + [Message(msgId, role, content, msgNow)]
            && r.db[chatId].title == (if chat.messages == [] && role == User then TitleFromContent(content) else chat.title)
            && r.db[chatId] == chat.(messages := r.db[chatId].messages, title := r.db[chatId].title, updatedAt := now)
            && r.db.Keys == st.db.Keys + {chatId}
            && (forall k :: k in st.db && k != chatId ==> r.db[k] == st.db[k])
            && r.currentId == st.currentId
            && |r.chats| == |st.chats|
            && (forall i :: 0 <= i < |st.chats| ==> r.chats[i] == if st.chats[i].id == chatId then r.db[chatId] else st.chats[i])
  {
    var chat := Find(st.chats, ChatId, chatId).value;
    assert chat.id == chatId;
  }

  /** `deleteChat`: remove from the store and the list; close it if open. */
  function DeleteChat(st: State, id: string): (r: State)
    ensures r.db.Keys == st.db.Keys - {id}
    ensures forall k :: k in r.db ==> r.db[k] == st.db[k]
    ensures forall i :: 0 <= i < |r.chats| ==> r.chats[i].id != id
    ensures forall c :: c in st.chats && c.id != id ==> c in r.chats
    ensures Subsequence(r.chats, st.chats)
    ensures |r.chats| == |st.chats| - CountKey(st.chats, ChatId, id)
    ensures r.currentId.Some? <==> st.currentId.Some? && st.currentId != Some(id)
    ensures r.currentId.Some? ==> r.currentId == st.currentId
  {
    State(ChatDb.DeleteChat(st.db, id), Without(st.chats, ChatId, id), if st.currentId == Some(id) then None else st.currentId)
  }

  lemma DeleteChatPersisted(st: State, id: string)
    requires Persisted(st)
    ensures Persisted(DeleteChat(st, id))
  {
  }

  /** `getCurrentChat`: the first listed chat with the open id. */
  function GetCurrentChat(st: State): (r: Option<Chat>)
    ensures r.Some? ==> r.value in st.chats && Some(r.value.id) == st.currentId
    ensures r.Some? ==> exists i :: 0 <= i < |st.chats| && st.chats[i] == r.value &&
                                    forall j :: 0 <= j < i ==> Some(st.chats[j].id) != st.currentId
    ensures r.None? <==> st.currentId.None? || forall c :: c in st.chats ==> c.id != st.currentId.value
  {
    FindCurrent(st.chats, ChatId, st.currentId)
  }

  /** A chat just created is the open chat. */
  lemma CreatedIsCurrent(st: State, title: Option<string>, id: string, createdAt: int, updatedAt: int)
    ensures var (st', c) := CreateNewChat(st, title, id, createdAt, updatedAt);
            GetCurrentChat(st') == Some(c)
  {
    var (st', c) := CreateNewChat(st, title, id, createdAt, updatedAt);
    assert st'.chats[0] == c;
  }

  /** Once the open chat is deleted, no chat is open. */
  lemma DeletedIsNotCurrent(st: State, id: string)
    requires st.currentId == Some(id)
    ensures GetCurrentChat(DeleteChat(st, id)).None?
  {
  }
}

=== FILE: exa_search_fallback.dfy ===
/**
 * The second web-search handler (`app/components/exawebsearch/route.ts`):
 * the same query validation and contextual query, but it answers 200 with
 * an empty result list when no search key is configured, and passes the
 * engine's hits through unprojected.
 */
module ExaSearchFallback {
  import opened Wrappers
  import ExaSearchRoute

  datatype Payload =
    | RawResults(results: seq<ExaSearchRoute.RawHit>)
    | Unavailable(error: string, results: seq<ExaSearchRoute.RawHit>)
    | Failure(error: string)

  datatype Response = Response(status: int, payload: Payload)

  const UnavailableMessage: string := "Поиск в интернете временно недоступен. API ключ не настроен."

  /** `POST`: 400 without a query; 200 with no results and a notice when no
      key is configured; otherwise the engine's hits for the contextual query,
      or 500 when the body is unreadable or the search fails. */
  function Post(body: Option<ExaSearchRoute.SearchBody>, keyConfigured: bool, search: string -> ExaSearchRoute.SearchOutcome): (r: Response)
    ensures body.None? ==> r.status == 500
    ensures body.Some? && !Truthy(body.value.query) ==> r == Response(400, Failure("Запрос обязателен"))
    ensures body.Some? && Truthy(body.value.query) && !keyConfigured ==>
              r == Response(200, Unavailable(UnavailableMessage, []))
    ensures body.Some? && Truthy(body.value.query) && keyConfigured ==>
              var outcome := search(ExaSearchRoute.ContextualQuery(body.value.query.value, body.value.previousQueries.GetOr([])));
              && (outcome.SearchFailed? ==> r == Response(500, Failure(ExaSearchRoute.FailurePrefix + outcome.message)))
              && (outcome.Found? ==> r == Response(200, RawResults(outcome.hits)))
    ensures r.status == 200 ==> body.Some? && Truthy(body.value.query)
  {
    match body
    case None => Response(500, Failure(ExaSearchRoute.FailurePrefix + "SyntaxError"))
    case Some(b) =>
      var query := b.query;
      if !Truthy(query) then Response(400, Failure("Запрос обязателен"))
      else if !keyConfigured then Response(200, Unavailable(UnavailableMessage, []))
      else
        var outcome := search(ExaSearchRoute.ContextualQuery(query.value, b.previousQueries.GetOr([])));
        if outcome.SearchFailed? then Response(500, Failure(ExaSearchRoute.FailurePrefix + outcome.message))
        else Response(200, RawResults(outcome.hits))
  }

  /** With a key configured, both handlers send the engine the same query and
      return the same hits, one projected and one not. */
  lemma AgreesWithApiRoute(body: ExaSearchRoute.SearchBody, search: string -> ExaSearchRoute.SearchOutcome)
    requires Truthy(body.query)
    ensures var a := ExaSearchRoute.Post(Some(body), search);
            var b := Post(Some(body), true, search);
            && a.status == b.status
            && (b.payload.RawResults? ==>
                  a.payload.Results? && |a.payload.results| == |b.payload.results| &&
                  forall i :: 0 <= i < |b.payload.results| ==> a.payload.results[i] == ExaSearchRoute.Project(b.payload.results[i]))
  {
  }
}

=== FILE: exa_search_route.dfy ===
/**
 * The `/api/exawebsearch` handler: validate the query, fold the previous
 * questions into one contextual query, run the search, and project each hit
 * onto six fields. The search engine is a function parameter; a thrown error
 * is a `SearchFailed` outcome.
 */
module ExaSearchRoute {
  import opened Wrappers
  import opened JsString
  import opened SplitJoin

  const QuestionPrefix: string := "Предыдущий вопрос: "
  const Newline: string := "\n"
  const AnswerQuestion: string := "Теперь ответьте на вопрос: "
  /** `\n\nТеперь ответьте на вопрос: `: a blank line, then the lead-in. */
  const AnswerLead: string := Newline + Newline + AnswerQuestion

  /** `previousQueries.map(q => `Предыдущий вопрос: ${q}`)` */
  function Prefixed(previous: seq<string>): (r: seq<string>)
    ensures |r| == |previous|
    ensures forall i :: 0 <= i < |previous| ==> r[i] == QuestionPrefix + previous[i]
  {
    seq(|previous|, i requires 0 <= i < |previous| => QuestionPrefix + previous[i])
  }

  /** The query as sent to the search engine: the query alone, or the previous
      questions one per line, a blank line, and the query after a lead-in. */
  function ContextualQuery(query: string, previous: seq<string>): (r: string)
    ensures |previous| == 0 ==> r == query
  {
    if |previous| > 0 then Join(Prefixed(previous), "\n") + AnswerLead + query else query
  }

  /** A contextual query splits back into its lines: one per previous
      question, the blank line, and the lead-in with the query. */
  lemma ContextualQueryLines(query: string, previous: seq<string>)
    requires |previous| > 0
    requires !Contains(query, "\n")
    requires forall i :: 0 <= i < |previous| ==> !Contains(previous[i], "\n")
    ensures Split(ContextualQuery(query, previous), "\n") == Prefixed(previous) + ["", AnswerQuestion + query]
  {
    var all := Prefixed(previous) + ["", AnswerQuestion + query];
    ContextualQueryJoin(query, previous);
    LinesFree(query, previous);
    JoinThenSplit(all, '\n');
  }

  /** The contextual query is the join of its lines. */
  lemma ContextualQueryJoin(query: string, previous: seq<string>)
    requires |previous| > 0
    ensures ContextualQuery(query, previous) == Join(Prefixed(previous) + ["", AnswerQuestion + query], "\n")
  {
    JoinBlankLine(Prefixed(previous), AnswerQuestion + query, Newline);
    var j := Join(Prefixed(previous), Newline);
    assert j + Newline + Newline + (AnswerQuestion + query) == j + AnswerLead + query;
  }

  /** Joining lines followed by a blank line and `last` puts two separators
      before `last`. */
  lemma JoinBlankLine(lines: seq<string>, last: string, sep: string)
    requires |lines| > 0
    ensures Join(lines + ["", last], sep) == Join(lines, sep) + sep + sep + last
  {
    var tail := ["", last];
    JoinAppend(lines, tail, sep);
    assert tail[1..] == [last];
    assert Join(tail, sep) == sep + last;
  }

  /** No line of a contextual query holds a newline. */
  lemma LinesFree(query: string, previous: seq<string>)
    requires !Contains(query, "\n")
    requires forall i :: 0 <= i < |previous| ==> !Contains(previous[i], "\n")
    ensures var all := Prefixed(previous) + ["", AnswerQuestion + query];
            forall k :: 0 <= k < |all| ==> !Contains(all[k], ['\n'])
  {
    var lines := Prefixed(previous);
    var all := lines + ["", AnswerQuestion + query];
    forall k | 0 <= k < |all| ensures !Contains(all[k], ['\n']) {
      if k < |lines| {
        PrefixedFree(previous[k]);
      } else if k == |lines| {
        assert !OccursAt("", ['\n'], 0);
      } else {
        NoNewlineChar(AnswerQuestion);
        NoNewlineConcat(AnswerQuestion, query);
      }
    }
  }

  /** Neither half of a concatenation has a newline, so neither has the whole. */
  lemma NoNewlineConcat(a: string, b: string)
    requires !Contains(a, "\n") && !Contains(b, "\n")
    ensures !Contains(a + b, "\n")
  {
    var s := a + b;
    forall i | 0 <= i <= |s| ensures !OccursAt(s, "\n", i) {
      if OccursAt(s, "\n", i) {
        if i < |a| {
          assert a[i..i + 1] == s[i..i + 1];
          assert OccursAt(a, "\n", i);
        } else {
          assert b[i - |a|..i - |a| + 1] == s[i..i + 1];
          assert OccursAt(b, "\n", i - |a|);
        }
      }
    }
  }

  /** A string without the newline character holds no `"\n"`. */
  lemma NoNewlineChar(s: string)
    requires forall i :: 0 <= i < |s| ==> s[i] != '\n'
    ensures !Contains(s, "\n")
  {
    forall i | 0 <= i <= |s| ensures !OccursAt(s, "\n", i) {
      if i + 1 <= |s| {
        assert s[i..i + 1] == [s[i]];
      }
    }
  }

  lemma PrefixedFree(q: string)
    requires !Contains(q, "\n")
    ensures !Contains(QuestionPrefix + q, "\n")
  {
    NoNewlineChar(QuestionPrefix);
    NoNewlineConcat(QuestionPrefix, q);
  }

  /** Different single-line questions give different contextual queries: the
      search engine sees every previous question and the query. */
  lemma ContextualQueryInjective(q1: string, p1: seq<string>, q2: string, p2: seq<string>)
    requires |p1| > 0 && |p2| > 0
    requires !Contains(q1, "\n") && !Contains(q2, "\n")
    requires forall i :: 0 <= i < |p1| ==> !Contains(p1[i], "\n")
    requires forall i :: 0 <= i < |p2| ==> !Contains(p2[i], "\n")
    requires ContextualQuery(q1, p1) == ContextualQuery(q2, p2)
    ensures q1 == q2 && p1 == p2
  {
    ContextualQueryLines(q1, p1);
    ContextualQueryLines(q2, p2);
    var l1 := Prefixed(p1) + ["", AnswerQuestion + q1];
    var l2 := Prefixed(p2) + ["", AnswerQuestion + q2];
    assert |p1| == |p2|;
    assert l1[|l1| - 1] == l2[|l2| - 1];
    assert q1 == (AnswerQuestion + q1)[|AnswerQuestion|..];
    assert q2 == (AnswerQuestion + q2)[|AnswerQuestion|..];
    forall i | 0 <= i < |p1| ensures p1[i] == p2[i] {
      assert l1[i] == l2[i];
      assert p1[i] == (QuestionPrefix + p1[i])[|QuestionPrefix|..];
      assert p2[i] == (QuestionPrefix + p2[i])[|QuestionPrefix|..];
    }
  }

  // ----- the handler -----

  /** A hit as the search engine returns it, with fields the route drops. */
  datatype RawHit = RawHit(
    id: string,
    score: Option<string>,
    title: Option<string>,
    url: string,
    text: Option<string>,
    author: Option<string>,
    publishedDate: Option<string>,
    favicon: Option<string>)

  /** The six fields the route passes on. */
  datatype Hit = Hit(
    title: Option<string>,
    url: string,
    text: Option<string>,
    author: Option<string>,
    publishedDate: Option<string>,
    favicon: Option<string>)

  datatype SearchOutcome = Found(hits: seq<RawHit>) | SearchFailed(message: string)

  /** The JSON body: the query (`None` when missing) and the previous
      questions (`None` when missing, which defaults to `[]`). */
  datatype SearchBody = SearchBody(query: Option<string>, previousQueries: Option<seq<string>>)

  datatype Payload = Results(results: seq<Hit>) | Failure(error: string)

  datatype Response = Response(status: int, payload: Payload)

  const FailurePrefix: string := "Не удалось выполнить поиск | "

  function Project(h: RawHit): (r: Hit)
    ensures r.title == h.title && r.url == h.url && r.text == h.text
    ensures r.author == h.author && r.publishedDate == h.publishedDate && r.favicon == h.favicon
  {
    Hit(h.title, h.url, h.text, h.author, h.publishedDate, h.favicon)
  }

  /** `POST`: 400 without a query; otherwise the projected hits of a search
      for the contextual query, in the engine's order, or 500 when the body
      is unreadable or the search fails. */
  function Post(body: Option<SearchBody>, search: string -> SearchOutcome): (r: Response)
    ensures body.None? ==> r.status == 500
    ensures body.Some? && !Truthy(body.value.query) ==> r == Response(400, Failure("Запрос обязателен"))
    ensures body.Some? && Truthy(body.value.query) ==>
              var outcome := search(ContextualQuery(body.value.query.value, body.value.previousQueries.GetOr([])));
              && (outcome.SearchFailed? ==> r == Response(500, Failure(FailurePrefix + outcome.message)))
              && (outcome.Found? ==>
                    && r.status == 200 && r.payload.Results?
                    && |r.payload.results| == |outcome.hits|
                    && forall i :: 0 <= i < |outcome.hits| ==> r.payload.results[i] == Project(outcome.hits[i]))
  {
    match body
    case None => Response(500, Failure(FailurePrefix + "SyntaxError"))
    case Some(SearchBody(query, previousQueries)) =>
      if !Truthy(query) then Response(400, Failure("Запрос обязателен"))
      else
        match search(ContextualQuery(query.value, previousQueries.GetOr([])))
        case SearchFailed(message) => Response(500, Failure(FailurePrefix + message))
        case Found(hits) => Response(200, Results(seq(|hits|, i requires 0 <= i < |hits| => Project(hits[i]))))
  }
}

=== FILE: file_text.dfy ===
/**
 * Reading an uploaded file into text (`lib/fileText.ts`). The file's bytes
 * are not modelled: `contents` stands for what `file.text()` resolves to.
 * A PDF (by MIME type or by extension) is not read; a placeholder naming the
 * file is returned instead.
 */
module FileText {
  import opened Wrappers
  import opened JsString
  import opened SplitJoin

  datatype FileText = FileText(text: string, mimeType: string)

  /** No position of `s` holds `c` when `s` does not contain `[c]`. */
  lemma CharFree(s: string, c: char)
    requires !Contains(s, [c])
    ensures forall i :: 0 <= i < |s| ==> s[i] != c
  {
    forall i | 0 <= i < |s| ensures s[i] != c {
      assert s[i..i + 1] == [s[i]];
      assert !OccursAt(s, [c], i);
    }
  }

  /** The last piece of splitting at dots is a dot-free suffix, preceded by a
      dot when there is one. */
  lemma LastPiece(name: string)
    ensures var parts := Split(name, ".");
            var last := parts[|parts| - 1];
            && |last| <= |name| && name[|name| - |last|..] == last
            && (forall i :: 0 <= i < |last| ==> last[i] != '.')
            && (!Contains(name, ".") ==> last == name)
            && (Contains(name, ".") ==> |last| < |name| && name[|name| - |last| - 1] == '.')
  {
    var parts := Split(name, ".");
    assert parts[|parts| - 1] == FinalPiece(name, ".");
    SplitLastIsSuffix(name, ".");
    LastPieceDotFree(name);
    if !Contains(name, ".") {
      SplitWithout(name, ".");
      assert parts == [name];
    } else {
      LastPieceAfterDot(name);
    }
  }

  lemma LastPieceDotFree(name: string)
    ensures var last := FinalPiece(name, ".");
            forall i :: 0 <= i < |last| ==> last[i] != '.'
  {
    var parts := Split(name, ".");
    SplitPiecesFree(name, ".");
    assert !Contains(parts[|parts| - 1], ".");
    CharFree(FinalPiece(name, "."), '.');
  }

  lemma LastPieceAfterDot(name: string)
    requires Contains(name, ".")
    ensures var last := FinalPiece(name, ".");
            |last| < |name| && name[|name| - |last| - 1] == '.'
  {
    var last := FinalPiece(name, ".");
    SplitLastAfterSeparator(name, ".");
    assert OccursAt(name, ".", |name| - |last| - 1);
    assert name[|name| - |last| - 1..|name| - |last|] == ".";
  }

  /** `name.split('.').pop().toLowerCase()`: the lower-cased text after the
      last dot, or the whole lower-cased name when it has no dot. */
  function Extension(name: string): (ext: string)
    ensures |ext| <= |name|
    ensures forall i :: 0 <= i < |ext| ==> ext[i] != '.'
    ensures !Contains(name, ".") ==> ext == ToLower(name)
    ensures Contains(name, ".") ==> |ext| < |name| && name[|name| - |ext| - 1] == '.'
    ensures ext == ToLower(name[|name| - |ext|..])
  {
    var parts := Split(name, ".");
    var last := parts[|parts| - 1];
    LastPiece(name);
    ToLower(last)
  }

  /** The extension is what follows the last dot: whatever precedes it. */
  lemma ExtensionAfterLastDot(stem: string, tail: string)
    requires !Contains(tail, ".")
    ensures Extension(stem + "." + tail) == ToLower(tail)
  {
    var s := stem + "." + tail;
    assert s[|stem|] == '.';
    LastPiece(s);
    assert OccursAt(s, ".", |stem|) by { assert s[|stem|..|stem| + 1] == "."; }
    var parts := Split(s, ".");
    var last := parts[|parts| - 1];
    var p := |s| - |last| - 1;
    CharFree(tail, '.');
    forall q | |stem| < q < |s| ensures s[q] != '.' {
      assert s[q] == tail[q - |stem| - 1];
    }
    assert p <= |stem|;
    forall q | p < q < |s| ensures s[q] != '.' {
      assert s[q] == last[q - p - 1];
    }
    assert |stem| <= p;
    assert last == tail;
  }

  /** The extension test ignores case: `REPORT.PDF` is a PDF. */
  lemma UpperCaseExtension(stem: string)
    ensures Extension(stem + ".PDF") == "pdf"
  {
    assert stem + ".PDF" == stem + "." + "PDF";
    assert !Contains("PDF", ".") by {
      forall i | 0 <= i <= 3 ensures !OccursAt("PDF", ".", i) {
        if i < 3 { assert "PDF"[i..i + 1] == ["PDF"[i]]; }
      }
    }
    ExtensionAfterLastDot(stem, "PDF");
  }

  /** `type.includes('pdf') || ext === 'pdf'` */
  predicate IsPdf(mimeType: string, name: string) {
    Contains(mimeType, "pdf") || Extension(name) == "pdf"
  }

  const PdfNotice: string := "\n\nСодержимое PDF файлов временно недоступно в веб-версии. Пожалуйста, используйте текстовые файлы (.txt, .md, .docx) для полной функциональности."

  /** The text returned for a PDF: the file's name and a notice that PDF
      contents are not available. */
  function PdfPlaceholder(name: string): (t: string)
    ensures |t| == |PdfOpen| + |name| + |PdfClose|
    ensures t[..|PdfOpen|] == PdfOpen && t[0] == '['
    ensures t[|PdfOpen|..|PdfOpen| + |name|] == name
    ensures t[|PdfOpen| + |name|..] == PdfClose
  {
    PdfOpen + name + PdfClose
  }

  const PdfOpen: string := "[PDF файл: "
  const PdfClose: string := "]" + PdfNotice

  /** Reads the file name back out of a placeholder; `None` for any text
      that is not one. */
  function PdfName(t: string): (r: Option<string>)
    ensures r.Some? ==> PdfPlaceholder(r.value) == t
  {
    if |t| >= |PdfOpen| + |PdfClose| && t[..|PdfOpen|] == PdfOpen && t[|t| - |PdfClose|..] == PdfClose then
      FramedParts(t, PdfOpen, PdfClose);
      Some(t[|PdfOpen|..|t| - |PdfClose|])
    else None
  }

  /** A string that starts with `a` and ends with `c` (not overlapping) is
      `a`, its middle and `c`. */
  lemma FramedParts(t: string, a: string, c: string)
    requires |t| >= |a| + |c| && t[..|a|] == a && t[|t| - |c|..] == c
    ensures a + t[|a|..|t| - |c|] + c == t
  {
    assert t == t[..|a|] + t[|a|..|t| - |c|] + t[|t| - |c|..];
  }

  /** The placeholder keeps the whole file name: it can be read back. */
  lemma PdfNameRoundTrip(name: string)
    ensures PdfName(PdfPlaceholder(name)) == Some(name)
  {
    var t := PdfPlaceholder(name);
    assert t[|t| - |PdfClose|..] == PdfClose;
  }

  /** `fileToText`: a PDF gives the placeholder and the given type (or
      `application/pdf`); any other file gives its contents and the given type,
      or `text/<ext>`, or `text/plain`. The type is never empty. */
  function FileToText(name: string, mimeType: string, contents: string): (r: FileText)
    ensures r.mimeType != ""
    ensures mimeType != "" ==> r.mimeType == mimeType
    ensures IsPdf(mimeType, name) ==> r.text == PdfPlaceholder(name)
    ensures IsPdf(mimeType, name) && mimeType == "" ==> r.mimeType == "application/pdf"
    ensures !IsPdf(mimeType, name) ==> r.text == contents
    ensures !IsPdf(mimeType, name) && mimeType == "" ==>
              r.mimeType == (if Extension(name) != "" then "text/" + Extension(name) else "text/plain")
  {
    if IsPdf(mimeType, name) then
      FileText(PdfPlaceholder(name), if mimeType != "" then mimeType else "application/pdf")
    else
      var ext := Extension(name);
      FileText(contents, if mimeType != "" then mimeType else if ext != "" then "text/" + ext else "text/plain")
  }
}

=== FILE: js_map.dfy ===
/**
 * A JavaScript `Map` with string keys: entries in insertion order, each key
 * at most once. `set` on a present key keeps its position; `delete` reports
 * whether the key was there; `values()` follows insertion order.
 */
module JsMap {
  import opened Wrappers
  import opened KeyedList

  datatype Entry<V> = Entry(key: string, value: V)

  function EntryKey<V>(e: Entry<V>): string {
    e.key
  }

  predicate UniqueKeys<V>(es: seq<Entry<V>>) {
    forall i, j :: 0 <= i < j < |es| ==> es[i].key != es[j].key
  }

  type Map<V> = es: seq<Entry<V>> | UniqueKeys(es) witness []

  predicate Has<V>(m: Map<V>, k: string) {
    exists i :: 0 <= i < |m| && m[i].key == k
  }

  /** `m.get(k)`: the value under `k`, `undefined` when absent. */
  function Get<V>(m: Map<V>, k: string): (r: Option<V>)
    ensures r.Some? <==> Has(m, k)
    ensures forall i :: 0 <= i < |m| && m[i].key == k ==> r == Some(m[i].value)
  {
    match IndexOfKey(m, EntryKey, k)
    case None => None
    case Some(i) => Some(m[i].value)
  }

  /** `[...m.keys()]` */
  function Keys<V>(m: Map<V>): (r: seq<string>)
    ensures |r| == |m| && forall i :: 0 <= i < |m| ==> r[i] == m[i].key
  {
    seq(|m|, i requires 0 <= i < |m| => m[i].key)
  }

  /** `[...m.values()]` */
  function Values<V>(m: Map<V>): (r: seq<V>)
    ensures |r| == |m| && forall i :: 0 <= i < |m| ==> r[i] == m[i].value
  {
    seq(|m|, i requires 0 <= i < |m| => m[i].value)
  }

  /** `m.size` */
  function Size<V>(m: Map<V>): nat {
    |m|
  }

  /** `m.set(k, v)`: overwrite in place, or append a new entry. */
  function Set<V>(m: Map<V>, k: string, v: V): (r: Map<V>)
    ensures Get(r, k) == Some(v)
    ensures forall k' :: k' != k ==> Get(r, k') == Get(m, k')
    ensures Keys(r) == if Has(m, k) then Keys(m) else Keys(m) + [k]
  {
    match IndexOfKey(m, EntryKey, k)
    case Some(i) =>
      var r := m[i := Entry(k, v)];
      assert UniqueKeys(r);
      assert Keys(r) == Keys(m);
      SetKeepsOthers(m, r, k);
      r
    case None =>
      var r := m + [Entry(k, v)];
      assert UniqueKeys(r);
      assert Keys(r) == Keys(m) + [k];
      assert r[|m|].key == k;
      SetKeepsOthers(m, r, k);
      r
  }

  /** Two maps whose entries agree at every position of the shorter one,
      and whose extra entries carry only the key `k`, agree on every other key. */
  lemma SetKeepsOthers<V>(m: Map<V>, r: Map<V>, k: string)
    requires |m| <= |r|
    requires forall j :: 0 <= j < |m| && m[j].key != k ==> r[j] == m[j]
    requires forall j :: 0 <= j < |r| && r[j].key != k ==> j < |m| && r[j] == m[j]
    ensures forall k' :: k' != k ==> Get(r, k') == Get(m, k')
  {
    forall k' | k' != k ensures Get(r, k') == Get(m, k') {
      if Has(m, k') {
        var j :| 0 <= j < |m| && m[j].key == k';
        assert r[j] == m[j];
      }
    }
  }

  /** `m.delete(k)`: the map without `k`, and whether `k` was there. */
  function Delete<V(==)>(m: Map<V>, k: string): (r: (Map<V>, bool))
    ensures r.1 <==> Has(m, k)
    ensures !Has(r.0, k)
    ensures forall k' :: k' != k ==> Get(r.0, k') == Get(m, k')
    ensures !Has(m, k) ==> r.0 == m
    ensures Subsequence(r.0, m)
  {
    var rest := Without(m, EntryKey, k);
    WithoutUnique(m, k);
    (rest, Has(m, k))
  }

  /** Filtering keeps keys unique and every other entry. */
  lemma {:induction false} WithoutUnique<V>(m: seq<Entry<V>>, k: string)
    requires UniqueKeys(m)
    ensures UniqueKeys(Without(m, EntryKey, k))
    ensures forall e :: e in m && e.key != k ==> e in Without(m, EntryKey, k)
  {
    if |m| > 0 {
      WithoutUnique(m[1..], k);
      var rest := Without(m[1..], EntryKey, k);
      if m[0].key != k {
        assert Without(m, EntryKey, k) == [m[0]] + rest;
        forall j | 0 <= j < |rest| ensures rest[j].key != m[0].key {
          assert rest[j] in m[1..];
        }
      }
    }
  }

  /** `m.clear()` */
  function Clear<V>(m: Map<V>): (r: Map<V>)
    ensures forall k :: !Has(r, k)
  {
    []
  }
}

=== FILE: js_string.dfy ===
/**
 * The JavaScript string primitives the chat client leans on: `trim`,
 * `includes`, `indexOf`, `replace` with a string pattern, ASCII `toLowerCase`
 * and the character-by-character ordering of keys. Strings are `seq<char>`.
 */
module JsString {
  import opened Wrappers

  /** ECMAScript WhiteSpace and LineTerminator code points: what `trim` strips. */
  predicate IsWhitespace(c: char) {
    || c == '\t' || c == '\n' || c == '\U{B}' || c == '\U{C}' || c == '\r'
    || c == ' ' || c == '\U{A0}' || c == '\U{1680}'
    || ('\U{2000}' <= c <= '\U{200A}')
    || c == '\U{2028}' || c == '\U{2029}' || c == '\U{202F}' || c == '\U{205F}'
    || c == '\U{3000}' || c == '\U{FEFF}'
  }

  /** Every character of `s[lo..hi]` is whitespace. */
  predicate WhitespaceBetween(s: string, lo: int, hi: int)
    requires 0 <= lo <= hi <= |s|
  {
    forall k :: lo <= k < hi ==> IsWhitespace(s[k])
  }

  predicate AllWhitespace(s: string) {
    WhitespaceBetween(s, 0, |s|)
  }

  /** Neither end of `s` is whitespace: what `trim` guarantees of its result. */
  predicate NoEdgeWhitespace(s: string) {
    s == [] || (!IsWhitespace(s[0]) && !IsWhitespace(s[|s| - 1]))
  }

  /** `r` is `s` with some whitespace cut off each end. */
  ghost predicate Padded(s: string, r: string) {
    exists i, j :: 0 <= i <= j <= |s| && s[i..j] == r && WhitespaceBetween(s, 0, i) && WhitespaceBetween(s, j, |s|)
  }

  function TrimStart(s: string): (r: string)
    ensures |r| <= |s| && r == s[|s| - |r|..]
    ensures WhitespaceBetween(s, 0, |s| - |r|)
    ensures r == [] || !IsWhitespace(r[0])
  {
    if |s| > 0 && IsWhitespace(s[0]) then
      var r := TrimStart(s[1..]);
      assert forall k :: 1 <= k < |s| - |r| ==> s[k] == s[1..][k - 1];
      r
    else s
  }

  function TrimEnd(s: string): (r: string)
    ensures |r| <= |s| && r == s[..|r|]
    ensures WhitespaceBetween(s, |r|, |s|)
    ensures r == [] || !IsWhitespace(r[|r| - 1])
  {
    if |s| > 0 && IsWhitespace(s[|s| - 1]) then
      var r := TrimEnd(s[..|s| - 1]);
      assert forall k :: |r| <= k < |s| - 1 ==> s[k] == s[..|s| - 1][k];
      r
    else s
  }

  /** `String.prototype.trim`. */
  function Trim(s: string): (r: string)
    ensures NoEdgeWhitespace(r)
    ensures Padded(s, r)
  {
    var t := TrimStart(s);
    var r := TrimEnd(t);
    PaddedWitness(s, t, r);
    r
  }

  lemma PaddedWitness(s: string, t: string, r: string)
    requires t == TrimStart(s) && r == TrimEnd(t)
    ensures Padded(s, r)
  {
    var i := |s| - |t|;
    var j := i + |r|;
    WhitespaceShift(s, i, j);
    PaddedIntro(s, r, i, j);
  }

  lemma PaddedIntro(s: string, r: string, i: nat, j: nat)
    requires i <= j <= |s| && s[i..j] == r
    requires WhitespaceBetween(s, 0, i) && WhitespaceBetween(s, j, |s|)
    ensures Padded(s, r)
  {
  }

  lemma WhitespaceShift(s: string, i: nat, j: nat)
    requires i <= j <= |s| && WhitespaceBetween(s[i..], j - i, |s| - i)
    ensures WhitespaceBetween(s, j, |s|)
  {
    forall k | j <= k < |s| ensures IsWhitespace(s[k]) {
      assert s[k] == s[i..][k - i];
    }
  }

  lemma {:induction false} TrimStartOf(s: string, i: nat)
    requires i <= |s| && WhitespaceBetween(s, 0, i)
    requires i == |s| || !IsWhitespace(s[i])
    ensures TrimStart(s) == s[i..]
    decreases i
  {
    if i > 0 {
      var s' := s[1..];
      assert forall k :: 0 <= k < i - 1 ==> s'[k] == s[k + 1];
      TrimStartOf(s', i - 1);
      assert s'[i - 1..] == s[i..];
    }
  }

  lemma {:induction false} TrimEndOf(s: string, j: nat)
    requires j <= |s| && WhitespaceBetween(s, j, |s|)
    requires j == 0 || !IsWhitespace(s[j - 1])
    ensures TrimEnd(s) == s[..j]
    decreases |s| - j
  {
    if j < |s| {
      var s' := s[..|s| - 1];
      assert forall k :: j <= k < |s'| ==> s'[k] == s[k];
      TrimEndOf(s', j);
      assert s'[..j] == s[..j];
    }
  }

  /** `trim` is determined by its two promises: any whitespace-padded infix of
      `s` with no whitespace at its ends IS `Trim(s)`. */
  lemma TrimCharacterized(s: string, r: string)
    requires Padded(s, r) && NoEdgeWhitespace(r)
    ensures Trim(s) == r
  {
    var i, j :| 0 <= i <= j <= |s| && s[i..j] == r && WhitespaceBetween(s, 0, i) && WhitespaceBetween(s, j, |s|);
    TrimBetween(s, r, i, j);
  }

  lemma TrimBetween(s: string, r: string, i: nat, j: nat)
    requires i <= j <= |s| && s[i..j] == r && NoEdgeWhitespace(r)
    requires WhitespaceBetween(s, 0, i) && WhitespaceBetween(s, j, |s|)
    ensures Trim(s) == r
  {
    if r == [] {
      TrimBetweenBlank(s, i, j);
    } else {
      TrimBetweenWord(s, r, i, j);
    }
  }

  /** Whitespace, an empty middle, whitespace: all of it is trimmed. */
  lemma TrimBetweenBlank(s: string, i: nat, j: nat)
    requires i == j <= |s|
    requires WhitespaceBetween(s, 0, i) && WhitespaceBetween(s, j, |s|)
    ensures Trim(s) == []
  {
    forall k | 0 <= k < |s| ensures IsWhitespace(s[k]) {
      if k < i {
        assert WhitespaceBetween(s, 0, i);
      } else {
        assert WhitespaceBetween(s, j, |s|);
      }
    }
    TrimStartOf(s, |s|);
  }

  lemma TrimBetweenWord(s: string, r: string, i: nat, j: nat)
    requires i < j <= |s| && s[i..j] == r && NoEdgeWhitespace(r)
    requires WhitespaceBetween(s, 0, i) && WhitespaceBetween(s, j, |s|)
    ensures Trim(s) == r
  {
    TrimStartAtWord(s, r, i, j);
    TrimEndAtWord(s, r, i, j);
  }

  lemma TrimStartAtWord(s: string, r: string, i: nat, j: nat)
    requires i < j <= |s| && s[i..j] == r && NoEdgeWhitespace(r)
    requires WhitespaceBetween(s, 0, i)
    ensures TrimStart(s) == s[i..]
  {
    assert s[i] == r[0];
    TrimStartOf(s, i);
  }

  lemma TrimEndAtWord(s: string, r: string, i: nat, j: nat)
    requires i < j <= |s| && s[i..j] == r && NoEdgeWhitespace(r)
    requires WhitespaceBetween(s, j, |s|)
    ensures TrimEnd(s[i..]) == r
  {
    var t := s[i..];
    assert t[j - i - 1] == r[|r| - 1];
    WhitespaceSuffix(s, i, j);
    TrimEndOf(t, j - i);
    assert t[..j - i] == r;
  }

  /** Whitespace after `j` in `s` is whitespace after `j - i` in `s[i..]`. */
  lemma WhitespaceSuffix(s: string, i: nat, j: nat)
    requires i <= j <= |s| && WhitespaceBetween(s, j, |s|)
    ensures WhitespaceBetween(s[i..], j - i, |s| - i)
  {
    var t := s[i..];
    forall k | j - i <= k < |t| ensures IsWhitespace(t[k]) {
      assert t[k] == s[k + i];
    }
  }

  /** `trim` yields the empty string exactly for all-whitespace input. */
  lemma TrimEmptyIff(s: string)
    ensures Trim(s) == [] <==> AllWhitespace(s)
  {
    if AllWhitespace(s) {
      TrimStartOf(s, |s|);
    }
  }

  /** Trimming twice trims nothing more. */
  lemma TrimIdempotent(s: string)
    ensures Trim(Trim(s)) == Trim(s)
  {
    var r := Trim(s);
    assert r[0..|r|] == r;
    TrimCharacterized(r, r);
  }

  // ----- searching -----

  predicate OccursAt(s: string, pat: string, i: int) {
    0 <= i && i + |pat| <= |s| && s[i..i + |pat|] == pat
  }

  /** `s.includes(pat)`. */
  predicate Contains(s: string, pat: string) {
    exists i | 0 <= i <= |s| :: OccursAt(s, pat, i)
  }

  function IndexOfFrom(s: string, pat: string, from: nat): (r: Option<nat>)
    ensures r.Some? ==> from <= r.value && OccursAt(s, pat, r.value)
    ensures r.Some? ==> forall k :: from <= k < r.value ==> !OccursAt(s, pat, k)
    ensures r.None? ==> forall k :: from <= k ==> !OccursAt(s, pat, k)
    decreases |s| - from
  {
    if from + |pat| > |s| then None
    else if s[from..from + |pat|] == pat then Some(from)
    else IndexOfFrom(s, pat, from + 1)
  }

  /** `s.indexOf(pat)`, with `None` for JavaScript's -1: the first occurrence. */
  function IndexOf(s: string, pat: string): (r: Option<nat>)
    ensures r.Some? <==> Contains(s, pat)
    ensures r.Some? ==> OccursAt(s, pat, r.value) && forall k :: 0 <= k < r.value ==> !OccursAt(s, pat, k)
  {
    IndexOfFrom(s, pat, 0)
  }

  /** An occurrence inside a prefix is an occurrence in the whole string. */
  lemma OccursInPrefix(s: string, pat: string, n: nat, k: int)
    requires n <= |s| && OccursAt(s[..n], pat, k)
    ensures OccursAt(s, pat, k)
  {
    assert s[..n][k..k + |pat|] == s[k..k + |pat|];
  }

  /** An occurrence inside a suffix is an occurrence in the whole string. */
  lemma OccursInSuffix(s: string, pat: string, n: nat, k: int)
    requires n <= |s| && OccursAt(s[n..], pat, k)
    ensures OccursAt(s, pat, n + k)
  {
    assert s[n..][k..k + |pat|] == s[n + k..n + k + |pat|];
  }

  /** `s.replace(pat, rep)` with a string pattern: only the first occurrence. */
  function ReplaceFirst(s: string, pat: string, rep: string): (r: string)
    ensures !Contains(s, pat) ==> r == s
    ensures Contains(s, pat) ==>
              exists i :: FirstOccurrence(s, pat, i) && r == s[..i] + rep + s[i + |pat|..]
  {
    match IndexOf(s, pat)
    case None => s
    case Some(i) => s[..i] + rep + s[i + |pat|..]
  }

  /** `pat` occurs at `i` and nowhere before. */
  predicate FirstOccurrence(s: string, pat: string, i: int) {
    OccursAt(s, pat, i) && forall k :: 0 <= k < i ==> !OccursAt(s, pat, k)
  }

  /** Conversely, wherever the first occurrence is, the replacement happens
      there and the length changes by the difference of the two strings. */
  lemma ReplaceFirstAt(s: string, pat: string, rep: string, i: nat)
    requires FirstOccurrence(s, pat, i)
    ensures ReplaceFirst(s, pat, rep) == s[..i] + rep + s[i + |pat|..]
    ensures |ReplaceFirst(s, pat, rep)| == |s| - |pat| + |rep|
  {
    var j := IndexOf(s, pat).value;
    assert !(j < i) && !(i < j);
  }

  /** A pattern at the very start is the one replaced. */
  lemma ReplaceFirstLeading(s: string, pat: string, rep: string)
    requires OccursAt(s, pat, 0)
    ensures ReplaceFirst(s, pat, rep) == rep + s[|pat|..]
  {
    ReplaceFirstAt(s, pat, rep, 0);
  }

  // ----- case and ordering -----

  function LowerChar(c: char): char {
    if 'A' <= c <= 'Z' then (c as int + 32) as char else c
  }

  /** `toLowerCase`, on the ASCII letters. */
  function ToLower(s: string): (r: string)
    ensures |r| == |s|
    ensures forall i :: 0 <= i < |s| ==> r[i] == LowerChar(s[i])
  {
    seq(|s|, i requires 0 <= i < |s| => LowerChar(s[i]))
  }

  /** Lexicographic order on characters. IndexedDB orders string keys by
      UTF-16 code units; the model compares its characters one by one. */
  predicate LexLe(a: string, b: string) {
    |a| == 0 || (|b| > 0 && (a[0] < b[0] || (a[0] == b[0] && LexLe(a[1..], b[1..]))))
  }

  lemma LexLeTotal(a: string, b: string)
    ensures LexLe(a, b) || LexLe(b, a)
  {
  }

  lemma LexLeTransitive(a: string, b: string, c: string)
    requires LexLe(a, b) && LexLe(b, c)
    ensures LexLe(a, c)
  {
  }

  lemma LexLeAntisymmetric(a: string, b: string)
    requires LexLe(a, b) && LexLe(b, a)
    ensures a == b
  {
    if |a| > 0 && |b| > 0 {
      LexLeAntisymmetric(a[1..], b[1..]);
      assert a == [a[0]] + a[1..] && b == [b[0]] + b[1..];
    }
  }
}

=== FILE: keyed_list.dfy ===
/**
 * The array operations the chat managers apply to their in-memory chat
 * lists, over any record type with a string key: `filter` by id, `find` by
 * id, `map` replacing the records with an id, and move-to-front.
 */
module KeyedList {
  import opened Wrappers

  /** `a` is `b` with some elements left out, order kept. */
  predicate Subsequence<T(==)>(a: seq<T>, b: seq<T>) {
    |a| == 0 || (|b| > 0 && ((a[0] == b[0] && Subsequence(a[1..], b[1..])) || Subsequence(a, b[1..])))
  }

  /** How many records carry the key `id`. */
  function CountKey<T>(xs: seq<T>, key: T -> string, id: string): nat {
    if |xs| == 0 then 0 else (if key(xs[0]) == id then 1 else 0) + CountKey(xs[1..], key, id)
  }

  /** `xs.filter(x => key(x) !== id)`. */
  function Without<T(==)>(xs: seq<T>, key: T -> string, id: string): (r: seq<T>)
    ensures forall i :: 0 <= i < |r| ==> key(r[i]) != id
    ensures forall x :: x in xs && key(x) != id ==> x in r
    ensures forall x :: x in r ==> x in xs
    ensures Subsequence(r, xs)
    ensures |r| == |xs| - CountKey(xs, key, id)
    ensures (forall i :: 0 <= i < |xs| ==> key(xs[i]) != id) ==> r == xs
  {
    if |xs| == 0 then []
    else
      var rest := Without(xs[1..], key, id);
      if key(xs[0]) == id then rest
      else
        assert ([xs[0]] + rest)[1..] == rest;
        [xs[0]] + rest
  }

  /** No record with a key means a count of zero. */
  lemma {:induction false} CountKeyAbsent<T>(xs: seq<T>, key: T -> string, id: string)
    requires forall i :: 0 <= i < |xs| ==> key(xs[i]) != id
    ensures CountKey(xs, key, id) == 0
  {
    if |xs| > 0 {
      CountKeyAbsent(xs[1..], key, id);
    }
  }

  /** A count never exceeds the length. */
  lemma {:induction false} CountKeyBound<T>(xs: seq<T>, key: T -> string, id: string)
    ensures CountKey(xs, key, id) <= |xs|
  {
    if |xs| > 0 {
      CountKeyBound(xs[1..], key, id);
    }
  }

  /** A subsequence that avoids the key leaves out at least every record
      with that key. */
  lemma {:induction false} AvoidingBound<T>(a: seq<T>, b: seq<T>, key: T -> string, id: string)
    requires Subsequence(a, b)
    requires forall i :: 0 <= i < |a| ==> key(a[i]) != id
    ensures |a| <= |b| - CountKey(b, key, id)
    decreases |b|
  {
    if |a| == 0 {
      CountKeyBound(b, key, id);
    } else if a[0] == b[0] && Subsequence(a[1..], b[1..]) {
      AvoidingBound(a[1..], b[1..], key, id);
    } else {
      AvoidingBound(a, b[1..], key, id);
    }
  }

  /** `Without` is the only subsequence that avoids the key and is as long as
      the records without it: the filter keeps every other record, in
      order, as often as it occurs. */
  lemma {:induction false} WithoutCharacterized<T>(r: seq<T>, xs: seq<T>, key: T -> string, id: string)
    requires Subsequence(r, xs)
    requires forall i :: 0 <= i < |r| ==> key(r[i]) != id
    requires |r| == |xs| - CountKey(xs, key, id)
    ensures r == Without(xs, key, id)
    decreases |xs|
  {
    if |xs| > 0 {
      var tail := xs[1..];
      CountKeyBound(tail, key, id);
      if key(xs[0]) == id {
        if |r| > 0 {
          assert r[0] != xs[0];
          WithoutCharacterized(r, tail, key, id);
        }
      } else if |r| == 0 {
        assert false;
      } else if r[0] == xs[0] && Subsequence(r[1..], tail) {
        WithoutCharacterized(r[1..], tail, key, id);
        assert r == [r[0]] + r[1..];
      } else {
        AvoidingBound(r, tail, key, id);
        assert false;
      }
    }
  }

  /** Filtering twice by the same key is filtering once. */
  lemma WithoutIdempotent<T>(xs: seq<T>, key: T -> string, id: string)
    ensures Without(Without(xs, key, id), key, id) == Without(xs, key, id)
  {
  }

  /** Index of the first record with key `id`. */
  function IndexOfKey<T>(xs: seq<T>, key: T -> string, id: string): (r: Option<nat>)
    ensures r.Some? ==> r.value < |xs| && key(xs[r.value]) == id
    ensures r.Some? ==> forall j :: 0 <= j < r.value ==> key(xs[j]) != id
    ensures r.None? ==> forall j :: 0 <= j < |xs| ==> key(xs[j]) != id
  {
    if |xs| == 0 then None
    else if key(xs[0]) == id then Some(0)
    else match IndexOfKey(xs[1..], key, id)
      case None => None
      case Some(i) => Some(i + 1)
  }

  /** `xs.find(x => key(x) === id)`: the first record with that key. */
  function Find<T>(xs: seq<T>, key: T -> string, id: string): (r: Option<T>)
    ensures r.None? <==> forall j :: 0 <= j < |xs| ==> key(xs[j]) != id
    ensures r.Some? ==> exists i :: 0 <= i < |xs| && xs[i] == r.value && key(xs[i]) == id &&
                                    forall j :: 0 <= j < i ==> key(xs[j]) != id
  {
    match IndexOfKey(xs, key, id)
    case None => None
    case Some(i) => Some(xs[i])
  }

  /** `xs.find(x => key(x) === current)` where `current` may be `null`, which no
      string key equals. */
  function FindCurrent<T>(xs: seq<T>, key: T -> string, current: Option<string>): (r: Option<T>)
    ensures current.None? ==> r.None?
    ensures current.Some? ==> r == Find(xs, key, current.value)
  {
    if current.None? then None else Find(xs, key, current.value)
  }

  /** `xs.map(x => key(x) === id ? f(x) : x)`. */
  function ReplaceWhere<T>(xs: seq<T>, key: T -> string, id: string, f: T -> T): (r: seq<T>)
    ensures |r| == |xs|
    ensures forall i :: 0 <= i < |xs| && key(xs[i]) != id ==> r[i] == xs[i]
    ensures forall i :: 0 <= i < |xs| && key(xs[i]) == id ==> r[i] == f(xs[i])
  {
    seq(|xs|, i requires 0 <= i < |xs| => if key(xs[i]) == id then f(xs[i]) else xs[i])
  }

  /** `[x, ...xs.filter(y => key(y) !== key(x))]`: `x` replaces every record with
      its key and goes first. */
  function MoveToFront<T(==)>(xs: seq<T>, key: T -> string, x: T): (r: seq<T>)
    ensures |r| >= 1 && r[0] == x
    ensures CountKey(r, key, key(x)) == 1
    ensures Subsequence(r[1..], xs)
    ensures |r| == 1 + |xs| - CountKey(xs, key, key(x))
    ensures forall y :: y in xs && key(y) != key(x) ==> y in r
    ensures forall i :: 1 <= i < |r| ==> r[i] in xs && key(r[i]) != key(x)
  {
    var rest := Without(xs, key, key(x));
    CountKeyAbsent(rest, key, key(x));
    assert ([x] + rest)[1..] == rest;
    [x] + rest
  }
}

=== FILE: page_old.dfy ===
/**
 * The logic of the older chat page that is not rendering: the search
 * context handed to the model as a system message, the window of previous
 * questions sent with each search, and the title of a chat opened by the
 * first question. The `<thinking>` splitter it uses is in `ThinkingTags`.
 */
module PageOld {
  import opened Wrappers
  import opened JsString
  import opened SplitJoin
  import Decimal
  import opened ChatModel
  import EnhancedManager

  // ----- search context -----

  /** A search hit as the page receives it. */
  datatype SearchResult = SearchResult(
    title: string,
    url: string,
    text: string,
    author: Option<string>,
    publishedDate: Option<string>,
    favicon: Option<string>)

  const ContextHeader: string := "Результаты веб-поиска:\n\n"
  /** The closing instructions of the search context, one sentence per piece. */
  const Instruction1: string := "\n\nИнструкции: Основываясь на результатах поиска выше, пожалуйста, предоставьте подробный и развернутый ответ на запрос пользователя. "
  const Instruction2: string := "При ссылке на информацию указывайте номер источника в скобках, например [1], [2] и т.д. "
  const Instruction3: string := "Используйте простой русский язык. "
  const Instruction4: string := "Самое важное: перед тем как дать окончательный ответ, подумайте вслух, думайте шаг за шагом. "
  const Instruction5: string := "Думайте глубоко и просмотрите свои шаги, сделайте 5-7 шагов размышлений. "
  const Instruction6: string := "Оберните размышления в теги <thinking>. "
  const Instruction7: string := "Начните с <thinking> и закончите </thinking>, а затем дайте окончательный ответ. "
  const Instruction8: string := "Учитывайте весь контекст разговора для более точного ответа."
  const ContextInstructions: string := Instruction1 + Instruction2 + Instruction3 + Instruction4 + Instruction5 + Instruction6 + Instruction7 + Instruction8
  const BlockSeparator: string := "\n\n"

  /** `Источник [n]`: the label of the n-th source, counted from one. */
  function SourceLabel(n: nat): string {
    "Источник [" + Decimal.NatToString(n) + "]"
  }

  /** One source: label, title, address, the author and date when present
      (non-empty), and the text, closed by a rule. */
  function SourceBlock(r: SearchResult, n: nat): (b: string)
    ensures |SourceLabel(n)| <= |b| && b[..|SourceLabel(n)|] == SourceLabel(n)
  {
    SourceLabel(n) + ":\nЗаголовок: " + r.title + "\nURL: " + r.url + "\n"
      + (if Truthy(r.author) then "Автор: " + r.author.value + "\n" else "")
      + (if Truthy(r.publishedDate) then "Дата: " + r.publishedDate.value + "\n" else "")
      + "Содержание: " + r.text + "\n---"
  }

  /** The blocks of all results, numbered from one in result order. */
  function SourceBlocks(results: seq<SearchResult>): (bs: seq<string>)
    ensures |bs| == |results|
    ensures forall i :: 0 <= i < |results| ==> bs[i] == SourceBlock(results[i], i + 1)
  {
    seq(|results|, i requires 0 <= i < |results| => SourceBlock(results[i], i + 1))
  }

  /** The system message built from the search results; empty when there
      are none. */
  function SearchContext(results: seq<SearchResult>): (c: string)
    ensures c == "" <==> |results| == 0
    ensures |results| > 0 ==> |ContextHeader| <= |c| && c[..|ContextHeader|] == ContextHeader
  {
    if |results| > 0 then Framed(ContextHeader, Join(SourceBlocks(results), BlockSeparator), ContextInstructions) else ""
  }

  /** `header`, then `body`, then `trailer`: the header is a prefix. */
  function Framed(header: string, body: string, trailer: string): (c: string)
    ensures |header| <= |c| && c[..|header|] == header
  {
    var c := header + body + trailer;
    assert c[..|header|] == header;
    c
  }

  /** With results, the context is the header, the numbered blocks, and the
      instructions: the i-th block carries the label `Источник [i+1]`. */
  lemma SearchContextShape(results: seq<SearchResult>)
    requires |results| > 0
    ensures var bs := SourceBlocks(results);
            && SearchContext(results) == ContextHeader + Join(bs, BlockSeparator) + ContextInstructions
            && forall i :: 0 <= i < |bs| ==> |SourceLabel(i + 1)| <= |bs[i]| && bs[i][..|SourceLabel(i + 1)|] == SourceLabel(i + 1)
  {
  }

  /** Two different positions never carry the same label. */
  lemma SourceLabelsDistinct(i: nat, j: nat)
    requires i != j
    ensures SourceLabel(i) != SourceLabel(j)
  {
    var li := SourceLabel(i);
    var lj := SourceLabel(j);
    var pre := "Источник [";
    if li == lj {
      var di := Decimal.NatToString(i);
      var dj := Decimal.NatToString(j);
      assert li == pre + di + "]" && lj == pre + dj + "]";
      assert |di| == |dj|;
      assert di == li[|pre|..|pre| + |di|];
      assert dj == lj[|pre|..|pre| + |dj|];
      Decimal.NatToStringInjective(i, j);
    }
  }

  // ----- previous questions -----

  const QueryWindow: nat := 5

  /** `xs.slice(-n)` for a positive `n`: the last n entries, or all of them
      when fewer. At `n = 0` this gives `[]`, where `slice(-0)` would give the
      whole array; the code only uses a window of five. */
  function LastN<T>(xs: seq<T>, n: nat): (r: seq<T>)
    ensures |r| == if |xs| < n then |xs| else n
    ensures r == xs[|xs| - |r|..]
  {
    if |xs| <= n then xs else xs[|xs| - n..]
  }

  /** What one search sends as `previousQueries`. */
  function SentQueries(previous: seq<string>): (r: seq<string>)
    ensures |r| == if |previous| < QueryWindow then |previous| else QueryWindow
    ensures r == previous[|previous| - |r|..]
  {
    LastN(previous, QueryWindow)
  }

  /** After a successful search the question joins the list, which keeps
      only the last five. */
  function RecordQuery(previous: seq<string>, input: string): (r: seq<string>)
    ensures |r| <= QueryWindow
    ensures |r| > 0 && r[|r| - 1] == input
  {
    LastN(previous + [input], QueryWindow)
  }

  /** The list after a run of successful searches, starting from `previous`. */
  function Replay(previous: seq<string>, inputs: seq<string>): seq<string>
    decreases |inputs|
  {
    if |inputs| == 0 then previous else Replay(RecordQuery(previous, inputs[0]), inputs[1..])
  }

  /** Keeping the last n of a prefix and then the last n after appending is
      keeping the last n of the whole. */
  lemma LastNAppend<T>(a: seq<T>, b: seq<T>, n: nat)
    ensures LastN(LastN(a, n) + b, n) == LastN(a + b, n)
  {
    var la := LastN(a, n);
    var k := |LastN(la + b, n)|;
    assert |LastN(a + b, n)| == k;
    assert (la + b)[|la + b| - k..] == (a + b)[|a + b| - k..];
  }

  /** Recording the head of `inputs` and then keeping the last n after the
      rest is keeping the last n of everything. */
  lemma LastNStep<T>(previous: seq<T>, inputs: seq<T>, n: nat)
    requires |inputs| > 0
    ensures LastN(LastN(previous + [inputs[0]], n) + inputs[1..], n) == LastN(previous + inputs, n)
  {
    LastNAppend(previous + [inputs[0]], inputs[1..], n);
    assert previous + [inputs[0]] + inputs[1..] == previous + inputs;
  }

  /** However many questions are asked, the list holds the last five of
      them, oldest first. */
  lemma {:induction false} ReplayKeepsLastFive(previous: seq<string>, inputs: seq<string>)
    requires |previous| <= QueryWindow
    ensures Replay(previous, inputs) == LastN(previous + inputs, QueryWindow)
    decreases |inputs|
  {
    if |inputs| > 0 {
      ReplayKeepsLastFive(RecordQuery(previous, inputs[0]), inputs[1..]);
      LastNStep(previous, inputs, QueryWindow);
    }
  }

  // ----- the title of a chat opened by a question -----

  /** The title expression as written: the first fifty characters, followed
      by '...' when the question is longer and by 'Новый чат' otherwise. */
  function NewChatTitleAsWritten(input: string): (t: string)
    ensures |input| > TitleLength ==> t == input[..TitleLength] + "..."
    ensures |input| <= TitleLength ==> t == input + DefaultTitle
  {
    (if |input| <= TitleLength then input else input[..TitleLength])
      + (if |input| > TitleLength then "..." else DefaultTitle)
  }

  /** A short question gets the default title glued to it. */
  lemma NewChatTitleAsWrittenGluesDefault()
    ensures NewChatTitleAsWritten("hi") == "hiНовый чат"
    ensures NewChatTitleAsWritten("hi") != "hi"
  {
  }

  /** The title the first question should give: the question itself when it
      is short, its first fifty characters and an ellipsis otherwise. */
  function NewChatTitle(input: string): (t: string)
    ensures |input| <= TitleLength ==> t == input
    ensures |input| > TitleLength ==> t == input[..TitleLength] + "..."
  {
    TitleFromContent(input)
  }

  /** The two agree on long questions and differ on every short one. */
  lemma NewChatTitleDiffers(input: string)
    ensures |input| > TitleLength ==> NewChatTitleAsWritten(input) == NewChatTitle(input)
    ensures |input| <= TitleLength ==> NewChatTitleAsWritten(input) != NewChatTitle(input)
  {
    if |input| <= TitleLength {
      assert |NewChatTitleAsWritten(input)| == |input| + |DefaultTitle|;
    }
  }

  /** The start of `handleSubmit`: a question that is blank once trimmed
      is ignored (`None`); otherwise, without an open chat, a chat titled
      from the question by the expression as written is created and opened
      (its two dates are two clock readings), and with one open nothing
      changes. */
  function EnsureChat(st: EnhancedManager.State, input: string, id: string, createdAt: int, updatedAt: int)
    : (r: Option<(EnhancedManager.State, Chat)>)
    ensures r.None? <==> Trim(input) == ""
    ensures r.Some? && EnhancedManager.GetCurrentChat(st).Some? ==>
              r.value == (st, EnhancedManager.GetCurrentChat(st).value)
    ensures r.Some? && EnhancedManager.GetCurrentChat(st).None? ==>
              && r.value.1.id == id && r.value.1.title == TitleOrDefault(Some(NewChatTitleAsWritten(input)))
              && r.value.1.messages == [] && r.value.1.createdAt == createdAt && r.value.1.updatedAt == updatedAt
              && r.value.0.chats == [r.value.1] + st.chats && r.value.0.currentId == Some(id)
  {
    if Trim(input) == "" then None
    else
      match EnhancedManager.GetCurrentChat(st)
      case Some(c) => Some((st, c))
      case None => Some(EnhancedManager.CreateNewChat(st, Some(NewChatTitleAsWritten(input)), id, createdAt, updatedAt))
  }

  /** The same step with the title the question should give. */
  function EnsureChatIntended(st: EnhancedManager.State, input: string, id: string, createdAt: int, updatedAt: int)
    : (r: Option<(EnhancedManager.State, Chat)>)
    ensures r.None? <==> Trim(input) == ""
    ensures r.Some? && EnhancedManager.GetCurrentChat(st).Some? ==>
              r.value == (st, EnhancedManager.GetCurrentChat(st).value)
    ensures r.Some? && EnhancedManager.GetCurrentChat(st).None? ==>
              && r.value.1.id == id && r.value.1.title == TitleOrDefault(Some(NewChatTitle(input)))
              && r.value.1.messages == [] && r.value.1.createdAt == createdAt && r.value.1.updatedAt == updatedAt
              && r.value.0.chats == [r.value.1] + st.chats && r.value.0.currentId == Some(id)
  {
    if Trim(input) == "" then None
    else
      match EnhancedManager.GetCurrentChat(st)
      case Some(c) => Some((st, c))
      case None => Some(EnhancedManager.CreateNewChat(st, Some(NewChatTitle(input)), id, createdAt, updatedAt))
  }

  /** Whenever the submit goes on, the chat it goes on with is the open chat
      of the resulting state. */
  lemma EnsureChatOpens(st: EnhancedManager.State, input: string, id: string, createdAt: int, updatedAt: int)
    ensures var r := EnsureChat(st, input, id, createdAt, updatedAt);
            r.Some? ==> EnhancedManager.GetCurrentChat(r.value.0) == Some(r.value.1)
    ensures var r := EnsureChatIntended(st, input, id, createdAt, updatedAt);
            r.Some? ==> EnhancedManager.GetCurrentChat(r.value.0) == Some(r.value.1)
  {
    if Trim(input) != "" && EnhancedManager.GetCurrentChat(st).None? {
      EnhancedManager.CreatedIsCurrent(st, Some(NewChatTitleAsWritten(input)), id, createdAt, updatedAt);
      EnhancedManager.CreatedIsCurrent(st, Some(NewChatTitle(input)), id, createdAt, updatedAt);
    }
  }

  /** The two differ only when a short question opens a chat: then the
      created chat's title has the default glued to it. */
  lemma EnsureChatDiffers(st: EnhancedManager.State, input: string, id: string, createdAt: int, updatedAt: int)
    ensures var a := EnsureChat(st, input, id, createdAt, updatedAt);
            var b := EnsureChatIntended(st, input, id, createdAt, updatedAt);
            a != b <==> Trim(input) != "" && EnhancedManager.GetCurrentChat(st).None? && |input| <= TitleLength
  {
    NewChatTitleDiffers(input);
    if Trim(input) != "" && EnhancedManager.GetCurrentChat(st).None? && |input| <= TitleLength {
      var a := EnsureChat(st, input, id, createdAt, updatedAt);
      var b := EnsureChatIntended(st, input, id, createdAt, updatedAt);
      assert Trim(input) != "" ==> input != "";
      assert a.value.1.title == NewChatTitleAsWritten(input);
      assert |NewChatTitleAsWritten(input)| == |input| + |DefaultTitle|;
      assert a.value.1.title != b.value.1.title;
    }
  }
}

=== FILE: simple_manager.dfy ===
/**
 * The first chat manager: an in-memory list mirrored to one local-storage
 * entry. The entry is written after every change, but only while the list
 * is non-empty. JSON encoding of the entry is not modelled: the entry holds
 * the list itself.
 */
module SimpleManager {
  import opened Wrappers
  import opened ChatModel
  import opened KeyedList

  /** This manager's chat record: no prompt, no file, no update stamp. */
  datatype SimpleChat = SimpleChat(id: string, title: string, messages: seq<Message>, createdAt: int)

  function SimpleId(c: SimpleChat): string {
    c.id
  }

  /** A `Partial<SimpleChat>` update object. */
  datatype SimplePatch = SimplePatch(id: Field<string>, title: Field<string>, messages: Field<seq<Message>>, createdAt: Field<int>)

  /** `{ ...chat, ...updates }` */
  function SpreadSimple(c: SimpleChat, p: SimplePatch): (r: SimpleChat)
    ensures p.id.Absent? ==> r.id == c.id
    ensures p.id.Present? ==> r.id == p.id.value
    ensures p.title.Absent? ==> r.title == c.title
    ensures p.title.Present? ==> r.title == p.title.value
    ensures p.messages.Absent? ==> r.messages == c.messages
    ensures p.messages.Present? ==> r.messages == p.messages.value
    ensures p.createdAt.Absent? ==> r.createdAt == c.createdAt
    ensures p.createdAt.Present? ==> r.createdAt == p.createdAt.value
  {
    SimpleChat(p.id.Or(c.id), p.title.Or(c.title), p.messages.Or(c.messages), p.createdAt.Or(c.createdAt))
  }

  /** The list, the open id, and the saved local-storage entry (`None` when
      nothing was ever saved). */
  datatype State = State(chats: seq<SimpleChat>, currentId: Option<string>, saved: Option<seq<SimpleChat>>)

  /** The save effect: the list is written only when it is non-empty. */
  function Persist(chats: seq<SimpleChat>, saved: Option<seq<SimpleChat>>): (r: Option<seq<SimpleChat>>)
    ensures |chats| > 0 ==> r == Some(chats)
    ensures |chats| == 0 ==> r == saved
  {
    if |chats| > 0 then Some(chats) else saved
  }

  /** Loading on mount: the saved list, or nothing. */
  function Load(saved: Option<seq<SimpleChat>>): (st: State)
    ensures st.currentId == None && st.saved == saved
    ensures saved.Some? ==> st.chats == saved.value
    ensures saved.None? ==> st.chats == []
  {
    State(saved.GetOr([]), None, saved)
  }

  /** A state whose entry already mirrors its non-empty list. */
  predicate Mirrored(st: State) {
    |st.chats| > 0 ==> st.saved == Some(st.chats)
  }

  /** `createNewChat`, followed by the save effect. */
  function CreateNewChat(st: State, title: Option<string>, id: string, now: int): (r: (State, SimpleChat))
    ensures r.1 == SimpleChat(id, TitleOrDefault(title), [], now)
    ensures r.0.chats == [r.1] + st.chats
    ensures r.0.currentId == Some(id)
    ensures r.0.saved == Some(r.0.chats)
  {
    var newChat := SimpleChat(id, TitleOrDefault(title), [], now);
    var chats := [newChat] + st.chats;
    (State(chats, Some(newChat.id), Persist(chats, st.saved)), newChat)
  }

  /** `updateChat`, followed by the save effect. */
  function UpdateChat(st: State, chatId: string, updates: SimplePatch): (r: State)
    ensures |r.chats| == |st.chats|
    ensures forall i :: 0 <= i < |st.chats| && st.chats[i].id != chatId ==> r.chats[i] == st.chats[i]
    ensures forall i :: 0 <= i < |st.chats| && st.chats[i].id == chatId ==> r.chats[i] == SpreadSimple(st.chats[i], updates)
    ensures r.currentId == st.currentId
    ensures Mirrored(r)
  {
    var chats := ReplaceWhere(st.chats, SimpleId, chatId, c => SpreadSimple(c, updates));
    State(chats, st.currentId, Persist(chats, st.saved))
  }

  /** `deleteChat`, followed by the save effect. */
  function DeleteChat(st: State, chatId: string): (r: State)
    ensures forall i :: 0 <= i < |r.chats| ==> r.chats[i].id != chatId
    ensures forall c :: c in st.chats && c.id != chatId ==> c in r.chats
    ensures Subsequence(r.chats, st.chats)
    ensures |r.chats| == |st.chats| - CountKey(st.chats, SimpleId, chatId)
    ensures r.currentId.Some? <==> st.currentId.Some? && st.currentId != Some(chatId)
    ensures r.currentId.Some? ==> r.currentId == st.currentId
    ensures Mirrored(r)
  {
    var chats := Without(st.chats, SimpleId, chatId);
    State(chats, if st.currentId == Some(chatId) then None else st.currentId, Persist(chats, st.saved))
  }

  /** `getCurrentChat`: the first listed chat with the open id. */
  function GetCurrentChat(st: State): (r: Option<SimpleChat>)
    ensures r.Some? ==> r.value in st.chats && Some(r.value.id) == st.currentId
    ensures r.Some? ==> exists i :: 0 <= i < |st.chats| && st.chats[i] == r.value &&
                                    forall j :: 0 <= j < i ==> Some(st.chats[j].id) != st.currentId
    ensures r.None? <==> st.currentId.None? || forall c :: c in st.chats ==> c.id != st.currentId.value
  {
    FindCurrent(st.chats, SimpleId, st.currentId)
  }

  /** Deleting the only chat leaves the entry holding it, so loading again
      brings the deleted chat back. */
  lemma DeleteLastChatReappears(st: State, c: SimpleChat)
    requires st.chats == [c] && Mirrored(st)
    ensures DeleteChat(st, c.id).chats == []
    ensures Load(DeleteChat(st, c.id).saved).chats == [c]
  {
  }

  /** While the list is non-empty, reloading gives back the same list. */
  lemma ReloadKeepsNonEmptyList(st: State)
    requires Mirrored(st) && |st.chats| > 0
    ensures Load(st.saved).chats == st.chats
  {
  }

  /** A chat just created is the open chat. */
  lemma CreatedIsCurrent(st: State, title: Option<string>, id: string, now: int)
    ensures var (st', c) := CreateNewChat(st, title, id, now);
            GetCurrentChat(st') == Some(c)
  {
    var (st', c) := CreateNewChat(st, title, id, now);
    assert st'.chats[0] == c;
  }
}

=== FILE: split_join.dfy ===
/**
 * `String.prototype.split` with a non-empty string separator and
 * `Array.prototype.join`, with the round trips that connect them.
 */
module SplitJoin {
  import opened Wrappers
  import opened JsString

  /** `parts.join(sep)`; the empty array joins to the empty string. */
  function Join(parts: seq<string>, sep: string): string {
    if |parts| == 0 then ""
    else if |parts| == 1 then parts[0]
    else parts[0] + sep + Join(parts[1..], sep)
  }

  /** No occurrence of `pat` starts before `i`, so the prefix `s[..i]` holds none. */
  lemma NoOccurrenceBefore(s: string, pat: string, i: nat)
    requires |pat| > 0 && i <= |s|
    requires forall k :: 0 <= k < i ==> !OccursAt(s, pat, k)
    ensures !Contains(s[..i], pat)
  {
    forall k | 0 <= k <= i && OccursAt(s[..i], pat, k)
      ensures false
    {
      OccursInPrefix(s, pat, i, k);
    }
  }

  /** `s.split(sep)`: the pieces between successive left-to-right occurrences. */
  function Split(s: string, sep: string): (parts: seq<string>)
    requires |sep| > 0
    ensures |parts| >= 1
    decreases |s|
  {
    match IndexOf(s, sep)
    case None => [s]
    case Some(i) => [s[..i]] + Split(s[i + |sep|..], sep)
  }

  /** No piece of a split contains the separator. */
  lemma {:induction false} SplitPiecesFree(s: string, sep: string)
    requires |sep| > 0
    ensures forall k :: 0 <= k < |Split(s, sep)| ==> !Contains(Split(s, sep)[k], sep)
    decreases |s|
  {
    match IndexOf(s, sep)
    case None =>
    case Some(i) =>
      NoOccurrenceBefore(s, sep, i);
      SplitPiecesFree(s[i + |sep|..], sep);
  }

  /** Joining the pieces of a split with the same separator gives the string back. */
  lemma {:induction false} SplitThenJoin(s: string, sep: string)
    requires |sep| > 0
    ensures Join(Split(s, sep), sep) == s
    decreases |s|
  {
    match IndexOf(s, sep)
    case None =>
    case Some(i) =>
      var tail := s[i + |sep|..];
      var rest := Split(tail, sep);
      assert Split(s, sep) == [s[..i]] + rest;
      assert ([s[..i]] + rest)[1..] == rest;
      SplitThenJoin(tail, sep);
      assert s == s[..i] + sep + tail by {
        assert s[i..i + |sep|] == sep;
        assert s == s[..i] + s[i..i + |sep|] + s[i + |sep|..];
      }
  }

  /** Joining a concatenation is joining the halves with one more separator between. */
  lemma {:induction false} JoinAppend(a: seq<string>, b: seq<string>, sep: string)
    requires |a| > 0 && |b| > 0
    ensures Join(a + b, sep) == Join(a, sep) + sep + Join(b, sep)
    decreases |a|
  {
    if |a| == 1 {
      assert (a + b)[1..] == b;
    } else {
      assert (a + b)[1..] == a[1..] + b;
      JoinAppend(a[1..], b, sep);
    }
  }

  /** One step of `Split` at the first occurrence. */
  lemma SplitAtFirst(s: string, sep: string, i: nat)
    requires |sep| > 0 && IndexOf(s, sep) == Some(i)
    ensures Split(s, sep) == [s[..i]] + Split(s[i + |sep|..], sep)
  {
  }

  /** With no occurrence, `Split` gives the whole string as the one piece. */
  lemma SplitWithout(s: string, sep: string)
    requires |sep| > 0 && !Contains(s, sep)
    ensures Split(s, sep) == [s]
  {
  }

  /** Splitting a join on a one-character separator that no piece contains
      gives the pieces back. */
  lemma {:induction false} JoinThenSplit(parts: seq<string>, c: char)
    requires |parts| >= 1
    requires forall k :: 0 <= k < |parts| ==> !Contains(parts[k], [c])
    ensures Split(Join(parts, [c]), [c]) == parts
    decreases |parts|
  {
    var s := Join(parts, [c]);
    if |parts| == 1 {
      assert s == parts[0];
      SplitWithout(s, [c]);
    } else {
      var p := parts[0];
      var tail := Join(parts[1..], [c]);
      assert s == p + [c] + tail;
      FirstAfterPrefix(p, c, tail);
      SplitAtFirst(s, [c], |p|);
      assert s[..|p|] == p;
      assert s[|p| + 1..] == tail;
      JoinThenSplit(parts[1..], c);
      assert parts == [p] + parts[1..];
    }
  }

  /** In `p + [c] + t` with no `c` in `p`, the first `c` is the one after `p`. */
  lemma FirstAfterPrefix(p: string, c: char, t: string)
    requires !Contains(p, [c])
    ensures IndexOf(p + [c] + t, [c]) == Some(|p|)
  {
    var s := p + [c] + t;
    assert OccursAt(s, [c], |p|) by { assert s[|p|..|p| + 1] == [c]; }
    forall k | 0 <= k < |p| ensures !OccursAt(s, [c], k) {
      if OccursAt(s, [c], k) {
        assert s[k..k + 1] == p[k..k + 1];
        assert OccursAt(p, [c], k);
        assert false;
      }
    }
  }

  /** The last piece of a split is a suffix of the string. */
  lemma {:induction false} SplitLastIsSuffix(s: string, sep: string)
    requires |sep| > 0
    ensures var parts := Split(s, sep);
            |parts[|parts| - 1]| <= |s| && s[|s| - |parts[|parts| - 1]|..] == parts[|parts| - 1]
    decreases |s|
  {
    match IndexOf(s, sep)
    case None =>
      SplitWithout(s, sep);
    case Some(i) =>
      var tail := s[i + |sep|..];
      SplitAtFirst(s, sep, i);
      SplitLastIsSuffix(tail, sep);
      var rest := Split(tail, sep);
      var last := rest[|rest| - 1];
      assert Split(s, sep)[|Split(s, sep)| - 1] == last;
      assert s[|s| - |last|..] == tail[|tail| - |last|..];
  }

  /** A split has more than one piece exactly when the separator occurs. */
  lemma SplitSingleIff(s: string, sep: string)
    requires |sep| > 0
    ensures |Split(s, sep)| == 1 <==> !Contains(s, sep)
  {
    match IndexOf(s, sep)
    case None =>
      SplitWithout(s, sep);
    case Some(i) =>
      SplitAtFirst(s, sep, i);
  }

  /** The last piece of a split. */
  function FinalPiece(s: string, sep: string): string
    requires |sep| > 0
  {
    var parts := Split(s, sep);
    parts[|parts| - 1]
  }

  /** Splitting at the first occurrence keeps the last piece, which then
      comes from the text after that occurrence. */
  lemma FinalPieceStep(s: string, sep: string, i: nat)
    requires |sep| > 0 && IndexOf(s, sep) == Some(i)
    ensures OccursAt(s, sep, i)
    ensures FinalPiece(s, sep) == FinalPiece(s[i + |sep|..], sep)
  {
    SplitAtFirst(s, sep, i);
    var rest := Split(s[i + |sep|..], sep);
    var parts := [s[..i]] + rest;
    assert parts[|parts| - 1] == rest[|rest| - 1];
  }

  /** When the separator occurs, it stands right before the last piece. */
  lemma {:induction false} SplitLastAfterSeparator(s: string, sep: string)
    requires |sep| > 0 && Contains(s, sep)
    ensures |FinalPiece(s, sep)| + |sep| <= |s|
    ensures OccursAt(s, sep, |s| - |FinalPiece(s, sep)| - |sep|)
    decreases |s|
  {
    var i := IndexOf(s, sep).value;
    var tail := s[i + |sep|..];
    FinalPieceStep(s, sep, i);
    var last := FinalPiece(tail, sep);
    assert |s| == i + |sep| + |tail|;
    if !Contains(tail, sep) {
      SplitWithout(tail, sep);
      assert |s| - |last| - |sep| == i;
    } else {
      SplitLastAfterSeparator(tail, sep);
      var k := |tail| - |last| - |sep|;
      OccursInSuffix(s, sep, i + |sep|, k);
      assert |s| - |last| - |sep| == i + |sep| + k;
    }
  }


}

=== FILE: thinking_tags.dfy ===
/**
 * The `<thinking>` splitter of the chat page: a model answer may carry its
 * reasoning between `<thinking>` and `</thinking>`, and the page shows the
 * reasoning and the final answer apart.
 */
module ThinkingTags {
  import opened Wrappers
  import opened JsString
  import opened SplitJoin

  const OpenTag: string := "<thinking>"
  const CloseTag: string := "</thinking>"

  /** What the page renders: the reasoning, the answer, whether the answer is
      finished, and whether there was any reasoning at all. */
  datatype Parsed = Parsed(thinking: string, finalResponse: string, isComplete: bool, hasThinking: bool)

  /** The opening tag is present and a closing tag occurs first at `i > 0`:
      the case in which both halves are split out. */
  predicate ClosedAt(content: string, i: nat) {
    Contains(content, OpenTag) && IndexOf(content, CloseTag) == Some(i) && i > 0
  }

  /** The opening tag is present but there is no usable closing split. */
  predicate Unclosed(content: string) {
    Contains(content, OpenTag) && (IndexOf(content, CloseTag) == None || IndexOf(content, CloseTag) == Some(0))
  }

  /** `parseMessageContent`: split on every `</thinking>`, take the first piece
      as the reasoning and rejoin the rest as the answer. */
  function ParseMessageContent(content: string): (p: Parsed)
    ensures p.hasThinking <==> Contains(content, OpenTag)
    ensures p.isComplete <==> !Unclosed(content)
  {
    var parts := Split(content, CloseTag);
    var thinkingPart := parts[0];
    var rest := parts[1..];
    SplitShape(content);
    if Contains(content, OpenTag) && thinkingPart != "" && |rest| > 0 then
      Parsed(Trim(ReplaceFirst(thinkingPart, OpenTag, "")), Trim(Join(rest, CloseTag)), true, true)
    else if Contains(content, OpenTag) then
      Parsed(Trim(ReplaceFirst(content, OpenTag, "")), "", false, true)
    else
      Parsed("", content, true, false)
  }

  /** Without an opening tag the whole content is the answer. */
  lemma ParseWithoutTag(content: string)
    requires !Contains(content, OpenTag)
    ensures ParseMessageContent(content) == Parsed("", content, true, false)
  {
  }

  /** With an opening tag and a first closing tag after position 0, the
      reasoning is the text before that closing tag without the opening tag,
      and the answer is everything after it, both trimmed. */
  lemma ParseClosed(content: string, i: nat)
    requires ClosedAt(content, i)
    ensures var p := ParseMessageContent(content);
            && p.thinking == Trim(ReplaceFirst(content[..i], OpenTag, ""))
            && p.finalResponse == Trim(content[i + |CloseTag|..])
            && p.isComplete && p.hasThinking
  {
    SplitShape(content);
  }

  /** With an opening tag but no closing tag after position 0, all of the
      content is reasoning and the answer is empty and unfinished. */
  lemma ParseUnclosed(content: string)
    requires Unclosed(content)
    ensures ParseMessageContent(content) == Parsed(Trim(ReplaceFirst(content, OpenTag, "")), "", false, true)
  {
    SplitShape(content);
  }

  /** What the split on `</thinking>` looks like: the first piece is the text
      before the first closing tag, and the other pieces rejoin to the text
      after it, later closing tags included. */
  lemma SplitShape(content: string)
    ensures var parts := Split(content, CloseTag);
            && (|parts| > 1 <==> Contains(content, CloseTag))
            && (IndexOf(content, CloseTag).None? ==> parts[0] == content)
            && (forall i :: IndexOf(content, CloseTag) == Some(i) ==>
                  parts[0] == content[..i] && Join(parts[1..], CloseTag) == content[i + |CloseTag|..])
  {
    SplitSingleIff(content, CloseTag);
    match IndexOf(content, CloseTag)
    case None =>
      SplitWithout(content, CloseTag);
    case Some(i) =>
      SplitAtFirst(content, CloseTag, i);
      var tail := content[i + |CloseTag|..];
      assert Split(content, CloseTag)[1..] == Split(tail, CloseTag);
      SplitThenJoin(tail, CloseTag);
  }

  /** In `<thinking>t</thinking>a` with no closing tag inside `t`, the first
      closing tag is the one right after `t`. */
  lemma FirstCloseAfterReasoning(t: string, a: string)
    requires !Contains(t, CloseTag)
    ensures IndexOf(OpenTag + t + CloseTag + a, CloseTag) == Some(|OpenTag| + |t|)
  {
    var content := OpenTag + t + CloseTag + a;
    var n := |OpenTag| + |t|;
    assert content[n..n + |CloseTag|] == CloseTag;
    assert OccursAt(content, CloseTag, n);
    forall k | 0 <= k < n ensures !OccursAt(content, CloseTag, k) {
      if k < |OpenTag| {
        assert content[..|OpenTag|] == OpenTag;
        assert content[k] != '<' || content[k + 1] != '/';
      } else if k + |CloseTag| <= n {
        if OccursAt(content, CloseTag, k) {
          assert content[k..k + |CloseTag|] == t[k - |OpenTag|..k - |OpenTag| + |CloseTag|];
          assert OccursAt(t, CloseTag, k - |OpenTag|);
          assert false;
        }
      } else {
        assert content[n] == '<';
        NoStraddle(content, k, n);
      }
    }
  }

  /** A closing tag cannot start just before another '<': its only '<' is its first character. */
  lemma NoStraddle(content: string, k: nat, n: nat)
    requires k < n < k + |CloseTag| && n < |content| && content[n] == '<'
    ensures !OccursAt(content, CloseTag, k)
  {
    if OccursAt(content, CloseTag, k) {
      assert false;
    }
  }

  /** Parsing recovers the trimmed reasoning and answer from the tagged form
      `<thinking>reasoning</thinking>answer`. */
  lemma TaggedRoundTrip(t: string, a: string)
    requires !Contains(t, CloseTag)
    ensures ParseMessageContent(OpenTag + t + CloseTag + a) == Parsed(Trim(t), Trim(a), true, true)
  {
    var content := OpenTag + t + CloseTag + a;
    var n := |OpenTag| + |t|;
    FirstCloseAfterReasoning(t, a);
    assert content[..|OpenTag|] == OpenTag;
    assert OccursAt(content, OpenTag, 0);
    assert ClosedAt(content, n);
    assert content[..n] == OpenTag + t;
    assert content[n + |CloseTag|..] == a;
    var head := OpenTag + t;
    assert head[..|OpenTag|] == OpenTag;
    assert IndexOf(head, OpenTag) == Some(0);
    assert head[|OpenTag|..] == t;
    assert ReplaceFirst(head, OpenTag, "") == t;
    ParseClosed(content, n);
  }
}

=== FILE: working_manager.dfy ===
/**
 * The chat manager the current page uses: an in-memory list of chats kept
 * beside the browser store, plus the id of the open chat. Every operation is
 * one atomic step from state to state; the store's asynchrony is not
 * modelled. The in-memory list keeps dates as ISO strings and the store as
 * `Date` objects; both are the same integer milliseconds here.
 */
module WorkingManager {
  import opened Wrappers
  import opened ChatModel
  import ChatDb
  import opened KeyedList

  datatype State = State(store: ChatDb.Store, chats: seq<Chat>, currentId: Option<string>)

  /** Every listed chat is the stored record as the store reads it back. */
  predicate Synced(st: State) {
    forall c :: c in st.chats ==> c.id in st.store && ChatDb.WithPrompt(st.store[c.id]) == c
  }

  /** Every listed chat is the stored record as the store reads it back,
      except for its `updatedAt`: after a write the store stamps the record
      and the list stamps its copy with a clock reading of its own. */
  predicate InStep(st: State) {
    forall c :: c in st.chats ==> c.id in st.store && ChatDb.WithPrompt(st.store[c.id]).(updatedAt := c.updatedAt) == c
  }

  /** A synced state is in step. */
  lemma SyncedInStep(st: State)
    requires Synced(st)
    ensures InStep(st)
  {
    forall c | c in st.chats ensures c.id in st.store && ChatDb.WithPrompt(st.store[c.id]).(updatedAt := c.updatedAt) == c {
      assert ChatDb.WithPrompt(st.store[c.id]) == c;
    }
  }

  /** What `updateChatMeta` is asked to do with the attached file: leave it
      (`undefined`), remove it (`null`), or replace it. */
  datatype FileUpdate = KeepFile | ClearFile | ReplaceFile(file: AttachedFile)

  /** A message handed to `addMessage`; a missing or empty timestamp is `None`. */
  datatype NewMessage = NewMessage(id: string, role: Role, content: string, timestamp: Option<int>)

  /** Loading on mount: every stored chat, newest first, prompts read back as ''. */
  method LoadChats(store: ChatDb.Store) returns (st: State)
    ensures st.store == store && st.currentId == None
    ensures |st.chats| == |store|
    ensures ChatDb.SortedByRecency(st.chats)
    ensures forall i, j :: 0 <= i < j < |st.chats| ==> st.chats[i].updatedAt >= st.chats[j].updatedAt
    ensures forall k :: k in store ==> ChatDb.WithPrompt(store[k]) in st.chats
    ensures Synced(st)
  {
    var all := ChatDb.GetAllChats(store);
    st := State(store, all, None);
  }

  /** `createNewChat`: store a fresh chat, put it first in the list and open
      it. The list copies the stored record, stamps included. */
  function CreateNewChat(st: State, title: Option<string>, id: string, createdAt: int, updatedAt: int): (r: (State, Chat))
    ensures r.1.id == id && r.1.title == TitleOrDefault(title)
    ensures r.1.messages == [] && r.1.systemPrompt == Some("") && r.1.attachedFile == None
    ensures r.1.createdAt == createdAt && r.1.updatedAt == updatedAt
    ensures r.0.chats == [r.1] + st.chats
    ensures r.0.currentId == Some(id)
    ensures r.0.store.Keys == st.store.Keys + {id} && r.0.store[id] == r.1
    ensures forall k :: k in st.store && k != id ==> r.0.store[k] == st.store[k]
  {
    var (store', created) := ChatDb.CreateChat(st.store, Some(TitleOrDefault(title)), id, createdAt, updatedAt);
    var newChat := ChatDb.WithPrompt(created);
    (State(store', [newChat] + st.chats, Some(newChat.id)), newChat)
  }

  /** A fresh id keeps the list and the store in step. */
  lemma CreateNewChatSynced(st: State, title: Option<string>, id: string, createdAt: int, updatedAt: int)
    requires Synced(st) && id !in st.store
    ensures Synced(CreateNewChat(st, title, id, createdAt, updatedAt).0)
  {
    var r := CreateNewChat(st, title, id, createdAt, updatedAt).0;
    forall c | c in r.chats ensures c.id in r.store && ChatDb.WithPrompt(r.store[c.id]) == c {
      if c != r.chats[0] {
        assert c in st.chats;
      }
    }
  }

  /** `deleteChat`: drop the chat from the store and the list; the open chat
      is closed only if it is the one deleted. */
  function DeleteChat(st: State, id: string): (r: State)
    ensures r.store.Keys == st.store.Keys - {id}
    ensures forall k :: k in r.store ==> r.store[k] == st.store[k]
    ensures forall i :: 0 <= i < |r.chats| ==> r.chats[i].id != id
    ensures forall c :: c in st.chats && c.id != id ==> c in r.chats
    ensures Subsequence(r.chats, st.chats)
    ensures |r.chats| == |st.chats| - CountKey(st.chats, ChatId, id)
    ensures r.currentId.Some? <==> st.currentId.Some? && st.currentId != Some(id)
    ensures r.currentId.Some? ==> r.currentId == st.currentId
  {
    State(
      ChatDb.DeleteChat(st.store, id),
      Without(st.chats, ChatId, id),
      if st.currentId == Some(id) then None else st.currentId)
  }

  lemma DeleteChatSynced(st: State, id: string)
    requires Synced(st)
    ensures Synced(DeleteChat(st, id))
  {
  }

  lemma DeleteChatInStep(st: State, id: string)
    requires InStep(st)
    ensures InStep(DeleteChat(st, id))
  {
  }

  /** `clearAllChats`: empty list, nothing open, empty store. */
  function ClearAllChats(st: State): (r: State)
    ensures r.chats == [] && r.currentId == None && r.store.Keys == {}
    ensures Synced(r)
  {
    State(ChatDb.DeleteAllChats(st.store), [], None)
  }

  /** `getCurrentChat`: the first listed chat with the open id, if any. */
  function GetCurrentChat(st: State): (r: Option<Chat>)
    ensures r.Some? ==> r.value in st.chats && Some(r.value.id) == st.currentId
    ensures r.Some? ==> exists i :: 0 <= i < |st.chats| && st.chats[i] == r.value &&
                                    forall j :: 0 <= j < i ==> Some(st.chats[j].id) != st.currentId
    ensures r.None? <==> st.currentId.None? || forall c :: c in st.chats ==> c.id != st.currentId.value
  {
    FindCurrent(st.chats, ChatId, st.currentId)
  }

  /** `addMessage`: read the chat from the store (an unknown id does nothing),
      append the message, write the list back, and move the chat to the top of
      the in-memory list. Three clock readings take part: `msgNow` stamps a
      message given without a timestamp, `storeNow` is the store's `updatedAt`
      and `listNow` the list's. */
  function AddMessage(st: State, chatId: string, m: NewMessage, msgNow: int, storeNow: int, listNow: int): (r: State)
    ensures chatId !in st.store ==> r == st
    ensures chatId in st.store ==>
              var msg := Message(m.id, m.role, m.content, m.timestamp.GetOr(msgNow));
              && r.currentId == st.currentId
              && r.store.Keys == st.store.Keys
              && (forall k :: k in st.store && k != chatId ==> r.store[k] == st.store[k])
              && r.store[chatId].messages == st.store[chatId].messages + [msg]
              && r.store[chatId].updatedAt == storeNow
              && r.store[chatId] == ChatDb.WithPrompt(st.store[chatId]).(messages := st.store[chatId].messages + [msg], updatedAt := storeNow)
              && |r.chats| >= 1 && r.chats[0] == ChatDb.WithPrompt(r.store[chatId]).(updatedAt := listNow)
              && CountKey(r.chats, ChatId, chatId) == 1
              && |r.chats| == 1 + |st.chats| - CountKey(st.chats, ChatId, chatId)
              && Subsequence(r.chats[1..], st.chats)
              && (forall c :: c in st.chats && c.id != chatId ==> c in r.chats)
  {
    match ChatDb.GetChat(st.store, chatId)
    case None => st
    case Some(dbChat) =>
      var ts := m.timestamp.GetOr(msgNow);
      var updatedMessages := dbChat.messages + [Message(m.id, m.role, m.content, ts)];
      var store' := ChatDb.UpdateChat(st.store, chatId, MessagesPatch(updatedMessages), storeNow);
      ChatDb.UpdateChatFields(st.store, chatId, MessagesPatch(updatedMessages), storeNow);
      var updatedChat := dbChat.(messages := updatedMessages, updatedAt := listNow);
      State(store', MoveToFront(st.chats, ChatId, updatedChat), st.currentId)
  }

  /** Appending a message keeps the list in step with the store: the chat
      taken from the store is the one written back, whatever the two stamps. */
  lemma AddMessageInStep(st: State, chatId: string, m: NewMessage, msgNow: int, storeNow: int, listNow: int)
    requires InStep(st)
    ensures InStep(AddMessage(st, chatId, m, msgNow, storeNow, listNow))
  {
    var r := AddMessage(st, chatId, m, msgNow, storeNow, listNow);
    if chatId in st.store {
      forall c | c in r.chats ensures c.id in r.store && ChatDb.WithPrompt(r.store[c.id]).(updatedAt := c.updatedAt) == c {
        var i :| 0 <= i < |r.chats| && r.chats[i] == c;
        if i > 0 {
          assert c in st.chats && c.id != chatId;
        }
      }
    }
  }

  /** After a message the list's copy of the chat differs from the store's
      record exactly when the two stamps do. */
  lemma AddMessageStamps(st: State, chatId: string, m: NewMessage, msgNow: int, storeNow: int, listNow: int)
    requires chatId in st.store
    ensures var r := AddMessage(st, chatId, m, msgNow, storeNow, listNow);
            r.chats[0] == ChatDb.WithPrompt(r.store[chatId]) <==> storeNow == listNow
  {
    var r := AddMessage(st, chatId, m, msgNow, storeNow, listNow);
    assert r.chats[0].updatedAt == listNow && r.store[chatId].updatedAt == storeNow;
  }

  /** The in-memory side of `updateChatMeta`: a string prompt replaces the
      prompt, `null` removes the file, a file replaces it, and anything left
      `undefined` keeps its value. */
  function ApplyMeta(c: Chat, systemPrompt: Option<string>, file: FileUpdate, now: int): (r: Chat)
    ensures r.id == c.id && r.title == c.title && r.messages == c.messages && r.createdAt == c.createdAt
    ensures r.updatedAt == now
    ensures r.systemPrompt == (if systemPrompt.Some? then systemPrompt else c.systemPrompt)
    ensures file.KeepFile? ==> r.attachedFile == c.attachedFile
    ensures file.ClearFile? ==> r.attachedFile == None
    ensures file.ReplaceFile? ==> r.attachedFile == Some(file.file)
  {
    c.(
      systemPrompt := if systemPrompt.Some? then systemPrompt else c.systemPrompt,
      attachedFile := match file
        case ClearFile => None
        case ReplaceFile(f) => Some(f)
        case KeepFile => c.attachedFile,
      updatedAt := now)
  }

  /** The update object `updateChatMeta` sends to the store as written: both
      properties are always present, `undefined` where the caller gave
      nothing. */
  function MetaPatchAsWritten(systemPrompt: Option<string>, file: FileUpdate): (p: ChatPatch)
    ensures p.systemPrompt == Present(systemPrompt)
    ensures p.attachedFile.Present?
    ensures p.attachedFile.value.Some? <==> file.ReplaceFile?
  {
    NoChange.(
      systemPrompt := Present(systemPrompt),
      attachedFile := Present(if file.ReplaceFile? then Some(file.file) else None))
  }

  /** `updateChatMeta` as written: the store receives `MetaPatchAsWritten`
      and stamps it at `storeNow`; the list receives `ApplyMeta` stamped at
      `listNow`. */
  function UpdateChatMetaAsWritten(st: State, chatId: string, systemPrompt: Option<string>, file: FileUpdate, storeNow: int, listNow: int): (r: State)
    ensures r.currentId == st.currentId
    ensures r.store == ChatDb.UpdateChat(st.store, chatId, MetaPatchAsWritten(systemPrompt, file), storeNow)
    ensures |r.chats| == |st.chats|
    ensures forall i :: 0 <= i < |st.chats| && st.chats[i].id != chatId ==> r.chats[i] == st.chats[i]
    ensures forall i :: 0 <= i < |st.chats| && st.chats[i].id == chatId ==>
              r.chats[i] == ApplyMeta(st.chats[i], systemPrompt, file, listNow)
  {
    State(
      ChatDb.UpdateChat(st.store, chatId, MetaPatchAsWritten(systemPrompt, file), storeNow),
      ReplaceWhere(st.chats, ChatId, chatId, c => ApplyMeta(c, systemPrompt, file, listNow)),
      st.currentId)
  }

  /** Changing only the prompt erases a stored attached file, while the list
      keeps showing it: the list and the store drift apart. */
  lemma UpdateChatMetaAsWrittenDropsFile(st: State, chatId: string, prompt: string, f: AttachedFile, storeNow: int, listNow: int)
    requires InStep(st)
    requires exists c :: c in st.chats && c.id == chatId && c.attachedFile == Some(f)
    ensures var r := UpdateChatMetaAsWritten(st, chatId, Some(prompt), KeepFile, storeNow, listNow);
            && r.store[chatId].attachedFile == None
            && (exists c :: c in r.chats && c.id == chatId && c.attachedFile == Some(f))
            && !InStep(r)
  {
    var c :| c in st.chats && c.id == chatId && c.attachedFile == Some(f);
    var i :| 0 <= i < |st.chats| && st.chats[i] == c;
    var r := UpdateChatMetaAsWritten(st, chatId, Some(prompt), KeepFile, storeNow, listNow);
    ChatDb.UpdateChatFields(st.store, chatId, MetaPatchAsWritten(Some(prompt), KeepFile), storeNow);
    assert r.chats[i] in r.chats;
  }

  /** Attaching a file without a prompt resets a stored prompt to ''. */
  lemma UpdateChatMetaAsWrittenDropsPrompt(st: State, chatId: string, f: AttachedFile, storeNow: int, listNow: int)
    requires chatId in st.store
    ensures UpdateChatMetaAsWritten(st, chatId, None, ReplaceFile(f), storeNow, listNow).store[chatId].systemPrompt == Some("")
  {
    ChatDb.UpdateChatFields(st.store, chatId, MetaPatchAsWritten(None, ReplaceFile(f)), storeNow);
  }

  /** The update object that says only what the caller asked for: a property
      the caller left `undefined` is not sent at all. */
  function MetaPatch(systemPrompt: Option<string>, file: FileUpdate): (p: ChatPatch)
    ensures p.id.Absent? && p.title.Absent? && p.messages.Absent? && p.createdAt.Absent?
    ensures p.systemPrompt.Present? <==> systemPrompt.Some?
    ensures p.attachedFile.Present? <==> !file.KeepFile?
  {
    NoChange.(
      systemPrompt := if systemPrompt.Some? then Present(systemPrompt) else Absent,
      attachedFile := match file
        case KeepFile => Absent
        case ClearFile => Present(None)
        case ReplaceFile(f) => Present(Some(f)))
  }

  /** The store-side update of the corrected `MetaPatch` is the in-memory one. */
  lemma MetaPatchMatchesApplyMeta(c: Chat, systemPrompt: Option<string>, file: FileUpdate, now: int)
    ensures Touch(c, MetaPatch(systemPrompt, file), now) == ApplyMeta(c, systemPrompt, file, now)
  {
  }

  /** `updateChatMeta` with the store update restricted to what was asked;
      the store stamps at `storeNow`, the list at `listNow`. */
  function UpdateChatMeta(st: State, chatId: string, systemPrompt: Option<string>, file: FileUpdate, storeNow: int, listNow: int): (r: State)
    ensures r.currentId == st.currentId
    ensures |r.chats| == |st.chats|
    ensures forall i :: 0 <= i < |st.chats| && st.chats[i].id != chatId ==> r.chats[i] == st.chats[i]
    ensures forall i :: 0 <= i < |st.chats| && st.chats[i].id == chatId ==>
              r.chats[i] == ApplyMeta(st.chats[i], systemPrompt, file, listNow)
    ensures chatId !in st.store ==> r.store == st.store
    ensures chatId in st.store ==>
              && r.store.Keys == st.store.Keys
              && (forall k :: k in st.store && k != chatId ==> r.store[k] == st.store[k])
              && ChatDb.WithPrompt(r.store[chatId]) == ApplyMeta(ChatDb.WithPrompt(st.store[chatId]), systemPrompt, file, storeNow)
  {
    State(
      ChatDb.UpdateChat(st.store, chatId, MetaPatch(systemPrompt, file), storeNow),
      ReplaceWhere(st.chats, ChatId, chatId, c => ApplyMeta(c, systemPrompt, file, listNow)),
      st.currentId)
  }

  /** The metadata update ignores the stamp it starts from. */
  lemma ApplyMetaRestamp(c: Chat, systemPrompt: Option<string>, file: FileUpdate, t: int, now: int)
    ensures ApplyMeta(c.(updatedAt := t), systemPrompt, file, now) == ApplyMeta(c, systemPrompt, file, now)
  {
  }

  /** With the corrected update object, the list stays in step with the store. */
  lemma UpdateChatMetaInStep(st: State, chatId: string, systemPrompt: Option<string>, file: FileUpdate, storeNow: int, listNow: int)
    requires InStep(st)
    ensures InStep(UpdateChatMeta(st, chatId, systemPrompt, file, storeNow, listNow))
  {
    var r := UpdateChatMeta(st, chatId, systemPrompt, file, storeNow, listNow);
    forall c | c in r.chats ensures c.id in r.store && ChatDb.WithPrompt(r.store[c.id]).(updatedAt := c.updatedAt) == c {
      var i :| 0 <= i < |r.chats| && r.chats[i] == c;
      var before := st.chats[i];
      assert before in st.chats;
      if before.id == chatId {
        var stored := ChatDb.WithPrompt(st.store[chatId]);
        assert stored.(updatedAt := before.updatedAt) == before;
        ApplyMetaRestamp(stored, systemPrompt, file, before.updatedAt, storeNow);
        assert ApplyMeta(before, systemPrompt, file, listNow).systemPrompt.Some?;
      }
    }
  }

  /** A chat just created is the open chat. */
  lemma CreatedIsCurrent(st: State, title: Option<string>, id: string, createdAt: int, updatedAt: int)
    ensures var (st', c) := CreateNewChat(st, title, id, createdAt, updatedAt);
            GetCurrentChat(st') == Some(c)
  {
    var (st', c) := CreateNewChat(st, title, id, createdAt, updatedAt);
    assert st'.chats[0] == c;
  }
}

=== FILE: wrappers.dfy ===
/** Option, the value-or-nothing wrapper used for JavaScript's `undefined` and `null`. */
module Wrappers {

  datatype Option<+T> = None | Some(value: T) {

    /** The wrapped value, or `default` when there is none (JavaScript's `??`). */
    function GetOr(default: T): T {
      match this
      case Some(v) => v
      case None => default
    }
  }

  /** JavaScript truthiness of an optional string: present and non-empty. */
  predicate Truthy(s: Option<string>) {
    s.Some? && s.value != ""
  }
}
